=== FILE: README.md ===
# Docling chunker driver, modelled in Dafny

This project models the decision and bookkeeping logic of `docling_chunker.py`. That script
turns every supported document in a directory into text chunks and writes them to a JSON file
for a retrieval pipeline. While it works, it reports progress as JSON lines on standard error.
When it finishes, it prints a one-line JSON result on standard output.

The model covers:

- **Argument handling** (`Cli`). The two required positional arguments, the optional
  `max_tokens` read with Python's `int()`, and seven boolean flags that count as set exactly
  when the token lower-cases to `true`. Each flag has its own default.
- **Document selection** (`Selection`). For each of the 19 allow-listed extensions in list
  order, the script globs `*<ext>` and then `*<EXT>`. Matching is case-sensitive.
- **Heartbeat arithmetic** (`Estimate`). The estimate is 1.5 seconds per page, truncated. The
  remaining time is floored at zero. The percentage is capped at 95.
- **Per-document pipeline** (`Driver`). Probe the page count when the suffix is `.pdf`, then
  convert, then chunk, then turn each chunk into a record with its whitespace word count. A
  document for which any of these steps raises is reported and not listed as processed; the
  records built before the exception stay in the output.
- **Progress lines** (`Events`). Their order is given as a state machine that every
  document's lines must follow.
- **Final result** (`Driver`, `Program`). The "no documents" and "no chunks" failures, the
  finalizing and saving lines, the output object with its statistics (`avg_tokens` is the
  floor of the mean), and the result printed by `main`.

The converter, the chunker and the PDF reader are libraries the driver treats as black boxes.
They become inputs, collected in a `Document` value per directory entry:

- the entry's name;
- what the page-count probe returns (`None` when the probe raises);
- the elapsed seconds at which the heartbeat reporter fires;
- the outcome: conversion raises; chunking raises after `k` chunks; the list of chunk texts;
  or the list of chunk texts, with building the record of one of them raising.

The directory listing, in the file system's order, is an input sequence of such values. Two
more inputs stand for exceptions the outer handler catches:

- a failure while building the converter or chunker;
- a failure while writing the output file.

Python text behaviour that matters is written out in `PyText`:

- `str.isspace` with its exact character set;
- `str.split()` as `Words`;
- `str(int)` and `int(str)`. The latter skips the surrounding whitespace `int()` skips, which
  is `str.isspace` without the separators U+001C to U+001F, and takes a sign and single
  underscores between digits;
- `PurePath.suffix`.

## Model

Paths are relative to the repository root.

| member | source | states |
|---|---|---|
| Cli.Flag | server/python/docling_chunker.py:434-440 | A present flag token is on exactly when it spells `true` in any mix of letter case. An absent one takes the default of its position. |
| Cli.LowerIsTrue | server/python/docling_chunker.py:434-440 | A token lower-cases to `true` exactly when it is four letters spelling t, r, u, e, each in either case. |
| Cli.ParseArgs | server/python/docling_chunker.py:424-440 | Fewer than two arguments after the script name is a usage error, and only that. A present `max_tokens` token that `int()` rejects is the only other failure. Otherwise: input and output come from positions 1 and 2; `max_tokens` is the parsed value or 512; every flag is set as its position prescribes, with defaults true, true, false, false, false, true, true. |
| Cli.DefaultsWhenOmitted | server/python/docling_chunker.py:430-440 | With only the two required arguments, the configuration is exactly the documented defaults. |
| Cli.ExtraArgumentsIgnored | server/python/docling_chunker.py:430-440 | Arguments beyond the tenth position change nothing. |
| Cli.OmittedMeansDefault | server/python/docling_chunker.py:433-440 | Appending the default token for the next position (`512`, `true` or `false`) parses the same as leaving it off. |
| Cli.FlagSpellings | server/python/docling_chunker.py:434-440 | `TRUE` and `True` turn a flag on. `yes`, `1` and ` true` turn it off, even where the default is on. |
| PyText.ParseIntRoundTrip | server/python/docling_chunker.py:433 | `int()` reads back every integer that `str()` writes. |
| PyText.NatToDecimal | server/python/docling_chunker.py:380 | The count written into the saving line is a nonempty run of digits whose value is the count, with a leading zero only for 0. |
| PyText.ParseIntSkipsPadding | server/python/docling_chunker.py:433 | `int()` reads ` 7\n` as 7: blanks and line breaks around the digits are skipped. |
| PyText.ParseIntSignAndGrouping | server/python/docling_chunker.py:433 | `int()` reads `-1_0` as -10: a sign, and an underscore between digits. |
| PyText.ParseIntRejectsSeparators | server/python/docling_chunker.py:433 | `int()` rejects a number padded with U+001C or U+001F, although `str.isspace` calls both whitespace. |
| PyText.ParseIntRejectsMalformed | server/python/docling_chunker.py:433 | `int()` rejects a doubled underscore and the empty string. |
| PyText.WordsKeepAllText | server/python/docling_chunker.py:326 | The words of `split()` are the text's non-whitespace characters, in order, with nothing lost or added. |
| PyText.Words | server/python/docling_chunker.py:326 | Every word of `split()` is nonempty and contains no whitespace. |
| PyText.CountWords | server/python/docling_chunker.py:326 | The counting loop returns exactly the number of words `split()` yields. |
| PyText.WordCountIsWordStarts | server/python/docling_chunker.py:326 | The number of words `split()` yields, and so every record's token count, is the number of positions where a non-whitespace character begins the text or follows whitespace. |
| PyText.SuffixShape | server/python/docling_chunker.py:223 | A path suffix is empty, or it is a dot followed by dot-free text that ends the name. |
| PyText.SuffixFromLastDot | server/python/docling_chunker.py:223 | The suffix is the text from the last dot on, unless that dot is the first or the last character of the name; then there is none. |
| PyText.SuffixWithoutDot | server/python/docling_chunker.py:223 | A name without a dot has no suffix. |
| Documents.IsPdfIff | server/python/docling_chunker.py:222-224 | The page count is probed exactly for names of at least five characters whose last four are `.pdf` in any letter case. |
| Documents.TotalPages | server/python/docling_chunker.py:222-224 | A positive page count means a `.pdf` suffix in any case with a successful probe. A `.pdf` file whose probe succeeds reports exactly the probe's count. |
| Documents.TotalPagesExamples | server/python/docling_chunker.py:222-224 | `scan.PDF` reports its probed count. `notes.docx`, the dot-file `.pdf` and a `.pdf` whose probe raises all report 0. |
| Selection.Glob | server/python/docling_chunker.py:208-209 | A glob keeps each listed entry whose name ends with the pattern, as often as it is listed, and no other entry. |
| Selection.SelectFromCount | server/python/docling_chunker.py:207-209 | Over a well-formed extension list, each entry is chosen as often as it is listed when it matches one of the extensions, and never otherwise. |
| Selection.PatternsDisjoint | server/python/docling_chunker.py:192-209 | A name matches at most one allow-list entry. It never matches both the lower- and the upper-case form of one entry. |
| Selection.Select | server/python/docling_chunker.py:192-209 | The selected list is a rearrangement of the supported entries of the listing. No supported file is dropped or picked twice. |
| Selection.SelectMembership | server/python/docling_chunker.py:207-209 | An entry is selected exactly when it is listed and its name ends with an allow-listed extension in lower or upper case. |
| Selection.SelectEmpty | server/python/docling_chunker.py:207-215 | Nothing is selected exactly when no listed name is supported. |
| Selection.SupportedIffFinalExtension | server/python/docling_chunker.py:192-209 | Whether a name is supported depends only on its final dot-word. That word must be an allow-list entry exactly as written or exactly upper-cased. |
| Selection.MixedCaseRejected | server/python/docling_chunker.py:207-209 | A name whose final extension has both an upper- and a lower-case letter after the dot is never selected. |
| Selection.SupportedExamples | server/python/docling_chunker.py:207-209 | `report.pdf` and `report.PDF` are selected. |
| Selection.MixedCaseExamples | server/python/docling_chunker.py:207-209 | `report.Pdf` and `Report.pDF` are not selected. |
| Selection.SelectGrouped | server/python/docling_chunker.py:192-209 | Every selected file is supported, and the files come in allow-list order: all PDFs, then Word files, and so on. |
| Estimate.EstimatedTotal | server/python/docling_chunker.py:64-74 | The estimate is the whole part of 1.5 seconds per page, and 0 for an unknown page count. |
| Estimate.Remaining | server/python/docling_chunker.py:75 | The remaining time is never negative. It is either 0 or the estimate minus the elapsed time, and never less than that difference. |
| Estimate.Percent | server/python/docling_chunker.py:76 | The percentage never exceeds 95, and it is 0 when there is no estimate. |
| Estimate.PercentMeaning | server/python/docling_chunker.py:76 | The percentage is non-negative for non-negative elapsed time. Below the cap it is exactly 100 times elapsed over estimate. |
| Estimate.PercentMonotone | server/python/docling_chunker.py:76 | More elapsed time never lowers the percentage. |
| Estimate.PercentSaturates | server/python/docling_chunker.py:76 | Once 95% of the estimate has elapsed, the percentage stays at 95. |
| Estimate.Beat | server/python/docling_chunker.py:70-91 | A heartbeat carries the document's page count and the elapsed time. Its estimated total, remaining time and percentage are the values the estimate helpers give for that page count and elapsed time. The remaining time is never negative, and the percentage is at most 95. |
| Estimate.RunBeats | server/python/docling_chunker.py:66-93 | Any number of heartbeats, at any times, leaves a converting document in conversion. |
| Events.RunChunkCounts | server/python/docling_chunker.py:278-293 | Reporting the running counts 1..k moves a document from 0 to k collected chunks. |
| Documents.Recorded | server/python/docling_chunker.py:308-327 | A document that succeeds records all its chunk texts. One whose record building raises keeps exactly the texts before the failing chunk, in order: as many as were recorded, even when the failing text repeats an earlier one. A document whose conversion or chunking raised records none. |
| Driver.RecordsOf | server/python/docling_chunker.py:308-327 | A document yields one record per recorded chunk, in order. Each record has the chunk's text, the file name as source, and the number of `split()` words as tokens. |
| Driver.DocStatuses | server/python/docling_chunker.py:226-353 | A document's lines open with `converting` and its page count. They close with `completed` and its chunk count when it succeeds, and with `error` and the exception's message otherwise. |
| Driver.OpeningReachesCollecting | server/python/docling_chunker.py:226-293 | `converting`, any heartbeats, `converted` and the running counts 1..k leave a document collecting its k-th chunk. |
| Driver.CollectingEnds | server/python/docling_chunker.py:295-353 | After k chunks, `chunked(k)` then `completed(k)` finish a document, and `chunked(k)` then `error` abort it. |
| Driver.DocumentFollowsLifecycle | server/python/docling_chunker.py:226-353 | Each document's progress lines follow the lifecycle. They end in `completed` with the chunk count when it succeeds, and in `error` when conversion, chunking or record building raised. |
| Driver.LoopRecords | server/python/docling_chunker.py:218-355 | The records of earlier documents are never rewritten: every earlier stage of the list is a prefix of a later one. |
| Driver.LoopProcessed | server/python/docling_chunker.py:218-355 | The processed files are only ever appended to: every earlier stage of the list is a prefix of a later one. |
| Driver.LoopSummary | server/python/docling_chunker.py:218-355 | After any prefix of the documents, the processed files are exactly the successful ones in order. The records are each document's own records in turn, in document order, with none dropped or repeated. So the record count is the total number of chunks they recorded. |
| Driver.Loop | server/python/docling_chunker.py:218-355 | The loop's state after n documents lists the successful files in order. Its records are the first document's records, then the second's, and so on, so there is one record per chunk those documents recorded. |
| Driver.AllRecords | server/python/docling_chunker.py:308-327 | Reference list of every document's records, one document after another; its length is the total number of chunks the documents recorded. |
| Driver.RecordProvenance | server/python/docling_chunker.py:308-329 | Every record is a recorded chunk of one of the documents. It is tagged with that document's name and counts its words. |
| Driver.RecordSourcesAccounted | server/python/docling_chunker.py:308-329 | Every record's source is among the processed files, or is a file whose record building raised after some of its records were kept. |
| Driver.TraceBounds | server/python/docling_chunker.py:219-353 | Every progress line of the loop carries a document position between 1 and the number of documents, that number as total, and the name of the document at that position. |
| Driver.TraceOrdered | server/python/docling_chunker.py:219-353 | Document positions in the loop's progress lines never go back. |
| Driver.TraceProjection | server/python/docling_chunker.py:219-353 | The lines with position `i` are exactly document `i`'s statuses, in order. |
| Driver.LoopTrace | server/python/docling_chunker.py:218-353 | Each progress line of the loop names one of the documents handled so far, by its 1-based position and its file name, with the number of documents as total. |
| Driver.LoopTraceOrdered | server/python/docling_chunker.py:218-353 | On the real document list, the documents are reported one after the other. |
| Driver.EachDocumentFollowsLifecycle | server/python/docling_chunker.py:218-355 | Read out of the whole progress stream, each document's lines follow the lifecycle. They finish as `completed` exactly when the document succeeded, and as `error` otherwise. |
| Driver.AverageTokens | server/python/docling_chunker.py:402 | `avg_tokens` is the floor of the mean token count. |
| Driver.AverageWithinBounds | server/python/docling_chunker.py:402 | The average lies between the smallest and the largest token count of any chunk. |
| Driver.Closing | server/python/docling_chunker.py:363-385 | After the loop come exactly two lines, `finalizing` then `saving`, both at the last position of the document count and both carrying the chunk count. |
| Driver.Conclude | server/python/docling_chunker.py:357-414 | With no records, the result is the "No chunks" failure and no extra lines. Otherwise the finalizing and saving lines follow. Then comes either the write failure with nothing written, or a success that reports and writes the records, processed files, the configuration (token limit and the four enrichment flags) and statistics. |
| Driver.ChunkSelected | server/python/docling_chunker.py:211-414 | With no documents, the result is the "No supported documents found" failure. Otherwise the job succeeds exactly when the documents produce a chunk and the write succeeds; a write failure is the result when chunks exist. A success reports: the total chunk count; the number of successful files; the output path; the written records, which are each document's records in document order; the successful files in order; the token limit and the four enrichment flags as configured; and the counts and floor-mean statistics. |
| Driver.ChunkDocuments | server/python/docling_chunker.py:122-420 | An exception while building the converter or chunker ends the job at once. The result carries its message, no progress line is written and no output file is produced. Otherwise the job runs on the selected documents, in selection order. |
| Driver.WrittenSourcesAccounted | server/python/docling_chunker.py:308-329 | Every chunk in the output file comes from a file listed in `processed_files`, or from a file whose record building raised part-way. |
| Driver.FailureIsIsolated | server/python/docling_chunker.py:343-355 | One failing document between two good ones does not stop the job. It reports both good files. The chunks kept are theirs, plus the records made before the failure when the middle one failed while building records. |
| Driver.PartialRecordsKept | server/python/docling_chunker.py:308-355 | A file whose record building raises on one of its chunks is not listed as processed, yet the records of the chunks before that one are written, in order, and counted in the result. |
| Driver.EmptyDocumentCounts | server/python/docling_chunker.py:278-329 | A document that converts but yields no chunks still counts as processed. |
| Program.RunMain | server/python/docling_chunker.py:423-443 | The exit status is 1 exactly for a usage error or an unreadable `max_tokens`. In the second case nothing is printed on standard output. Every other run exits 0 and prints the job's result. A success names the output path given as the second argument and the chunk count of the selected documents. |
| Program.JobFailureExitsNormally | server/python/docling_chunker.py:442-443 | A job that fails still exits 0. The printed result carries the setup error, or the "No supported documents found in <input_dir>" message. |
| Program.SuccessNamesOutputFile | server/python/docling_chunker.py:430-443 | With well-formed arguments and at least one chunk, the printed result is a success with the chunk count, the number of successful files and the output path. |
| Program.SeparatorInLimitIsUncaught | server/python/docling_chunker.py:433 | A `max_tokens` argument padded with U+001C ends the run with status 1 and no printed result. |

## Left out

- The import guard at the top of the script, which prints an error and exits 1 when a library
  is missing, is not modelled.
- The progress-tracker class is never used by the driver.
- Building the pipeline options, and the informational lines about enabled enrichments, are
  not modelled. Those lines are written before any progress line. Their only effect on the
  modelled behaviour is the setup failure, which is an input.
- The converter, the chunker and the PDF reader are inputs, as described above. So are chunk
  metadata such as `doc_items` and `headings`; records keep only text, source and tokens.
- Threads and clocks are not modelled. The heartbeat reporter's firing times are an input
  list, so a heartbeat that arrives after the join timeout is not modelled.
- JSON encoding, flushing, and the file and console writes are not modelled. The written
  object, the printed result and the progress lines are values.
- Python's traceback on an uncaught `ValueError` is not modelled; the run only exits 1 with
  nothing on standard output.
- An exception raised while writing a progress line is not modelled. In particular, a
  failure of the `completed` line after the file was listed as processed is not an outcome.
- Driver.Conclude: a write that fails after the output file is opened leaves that file
  truncated or partly written; the model records no output in that case.
- Estimate.Percent: is a real number and is not rounded to one decimal. Rounding is
  presentation only, and the bounds proved hold before rounding.
- PyText.Lower: only ASCII letters change case. Python's `str.lower`/`str.upper` also map
  other Unicode letters. All the extensions and the token `true` are ASCII.
- PyText.ParseInt: accepts only ASCII digits. Python's `int()` also accepts other Unicode
  decimal digits and limits the number of digits; neither is modelled.
- Selection.Glob: follows POSIX case-sensitive matching on an already listed directory.
  Directory entries that are not files are treated like files. On a case-insensitive glob,
  as on Windows, a file would be picked by both the lower- and the upper-case pattern.
- Selection.Glob: the dot-file `.pdf` is selected, because its name ends with `.pdf`. But its
  suffix is empty, so its page count is never probed. This follows the code as written.
- The test script `test_gpu_optimization.py` is not part of this model.

=== FILE: cli.dfy ===
/**
 * Command-line arguments: `argv[0]` is the program, then input directory, output file and up
 * to eight optional positional settings. A missing trailing setting takes its default; a
 * supplied flag is true exactly when it lower-cases to "true".
 */
module Cli {
  import opened Optional
  import opened PyText

  const DefaultMaxTokens: int := 512

  const UsageMessage: string :=
    "Usage: docling_chunker.py <input_dir> <output_file> [max_tokens] [merge_peers] [enable_formula] "
    + "[enable_picture_classification] [enable_picture_description] [enable_code_enrichment] "
    + "[enable_ocr] [enable_table_structure]"

  datatype Config = Config(
    inputDir: string,
    outputFile: string,
    maxTokens: int,
    mergePeers: bool,
    enableFormula: bool,
    enablePictureClassification: bool,
    enablePictureDescription: bool,
    enableCodeEnrichment: bool,
    enableOcr: bool,
    enableTableStructure: bool)

  datatype ParsedArgs =
    | UsageError                  // fewer than two arguments after the program name
    | BadMaxTokens(token: string) // `int()` rejected the max-tokens argument
    | Parsed(config: Config)

  /** The word "true" in any mix of upper- and lower-case letters. */
  predicate SpellsTrue(t: string) {
    && |t| == 4
    && (t[0] == 't' || t[0] == 'T') && (t[1] == 'r' || t[1] == 'R')
    && (t[2] == 'u' || t[2] == 'U') && (t[3] == 'e' || t[3] == 'E')
  }

  lemma LowerIsTrue(t: string)
    ensures Lower(t) == "true" <==> SpellsTrue(t)
  {
    if |t| == 4 {
      var l := Lower(t);
      assert l == "true" <==> l[0] == 't' && l[1] == 'r' && l[2] == 'u' && l[3] == 'e';
    }
  }

  /** The flag at position `i`: set exactly when its token spells "true", `default` when absent. */
  function Flag(argv: seq<string>, i: nat, default: bool): (b: bool)
    ensures i < |argv| ==> (b <==> SpellsTrue(argv[i]))
    ensures i >= |argv| ==> b == default
  {
    if |argv| > i then
      LowerIsTrue(argv[i]);
      Lower(argv[i]) == "true"
    else default
  }

  /** The argument handling at the start of the program. */
  function ParseArgs(argv: seq<string>): (r: ParsedArgs)
    ensures r.UsageError? <==> |argv| < 3
    ensures r.BadMaxTokens? <==> |argv| > 3 && ParseInt(argv[3]).None?
    ensures r.Parsed? ==> r.config.inputDir == argv[1] && r.config.outputFile == argv[2]
    ensures r.Parsed? ==> r.config.maxTokens == if |argv| > 3 then ParseInt(argv[3]).value else 512
    ensures r.Parsed? ==> (r.config.mergePeers <==> |argv| <= 4 || SpellsTrue(argv[4]))
    ensures r.Parsed? ==> (r.config.enableFormula <==> |argv| <= 5 || SpellsTrue(argv[5]))
    ensures r.Parsed? ==> (r.config.enablePictureClassification <==> |argv| > 6 && SpellsTrue(argv[6]))
    ensures r.Parsed? ==> (r.config.enablePictureDescription <==> |argv| > 7 && SpellsTrue(argv[7]))
    ensures r.Parsed? ==> (r.config.enableCodeEnrichment <==> |argv| > 8 && SpellsTrue(argv[8]))
    ensures r.Parsed? ==> (r.config.enableOcr <==> |argv| <= 9 || SpellsTrue(argv[9]))
    ensures r.Parsed? ==> (r.config.enableTableStructure <==> |argv| <= 10 || SpellsTrue(argv[10]))
  {
    if |argv| < 3 then UsageError
    else
      var maxTokens := if |argv| > 3 then ParseInt(argv[3]) else Some(DefaultMaxTokens);
      match maxTokens
      case None => BadMaxTokens(argv[3])
      case Some(m) =>
        Parsed(Config(argv[1], argv[2], m,
          Flag(argv, 4, true), Flag(argv, 5, true), Flag(argv, 6, false), Flag(argv, 7, false),
          Flag(argv, 8, false), Flag(argv, 9, true), Flag(argv, 10, true)))
  }

  /** With only the two required arguments every setting takes its default. */
  lemma DefaultsWhenOmitted(program: string, inputDir: string, outputFile: string)
    ensures ParseArgs([program, inputDir, outputFile])
         == Parsed(Config(inputDir, outputFile, 512, true, true, false, false, false, true, true))
  {
  }

  /** Arguments after the tenth position are ignored. */
  lemma ExtraArgumentsIgnored(argv: seq<string>, extra: seq<string>)
    requires |argv| >= 11
    ensures ParseArgs(argv + extra) == ParseArgs(argv)
  {
    var all := argv + extra;
    assert forall i :: 0 <= i < |argv| ==> all[i] == argv[i];
  }

  /** The spelling of the default for position `i` (3 = max tokens, 4..10 = flags). */
  function DefaultToken(i: nat): string
    requires 3 <= i <= 10
  {
    if i == 3 then IntToDecimal(DefaultMaxTokens)
    else if i == 4 || i == 5 || i == 9 || i == 10 then "true"
    else "false"
  }

  /** Leaving off a trailing argument is the same as passing its default explicitly. */
  lemma OmittedMeansDefault(argv: seq<string>)
    requires 3 <= |argv| <= 10
    ensures ParseArgs(argv + [DefaultToken(|argv|)]) == ParseArgs(argv)
  {
    var all := argv + [DefaultToken(|argv|)];
    assert forall i :: 0 <= i < |argv| ==> all[i] == argv[i];
    assert all[|argv|] == DefaultToken(|argv|);
    ParseIntRoundTrip(DefaultMaxTokens);
    assert !SpellsTrue("false");
    assert SpellsTrue("true");
  }

  /** Tokens that enable a flag and tokens that do not. */
  lemma FlagSpellings()
    ensures Flag(["p", "in", "out", "512", "TRUE"], 4, false)
    ensures Flag(["p", "in", "out", "512", "True"], 4, false)
    ensures !Flag(["p", "in", "out", "512", "yes"], 4, true)
    ensures !Flag(["p", "in", "out", "512", "1"], 4, true)
    ensures !Flag(["p", "in", "out", "512", " true"], 4, true)
  {
  }
}

=== FILE: documents.dfy ===
/**
 * One entry of the input directory, together with what the black-box collaborators do
 * with it. The converter, the chunker and the PDF page-count probe are not modelled; their
 * observable results for this file are given here instead.
 */
module Documents {
  import opened Optional
  import opened PyText

  /** How converting and chunking one document ends. */
  datatype Outcome =
    | ConversionRaises(message: string)
      // `converter.convert` raised
    | ChunkingRaises(produced: nat, message: string)
      // conversion returned, the chunk generator raised after yielding `produced` chunks
    | Chunks(texts: seq<string>)
      // conversion returned and the chunk generator yielded these texts, in order
    | RecordingRaises(recorded: seq<string>, failing: string, later: seq<string>, message: string)
      // the generator yielded `recorded`, `failing` and `later`, in that order; the records of
      // `recorded` were built, then building the record of `failing` raised

  datatype Document = Document(
    name: string,            // file name within the input directory
    pageProbe: Option<nat>,  // what the PDF page counter returns for it (None: it failed)
    ticks: seq<int>,         // elapsed whole seconds at each heartbeat during conversion
    outcome: Outcome)

  /** Whether the driver asks the page counter about this file: its suffix is `.pdf` in any case. */
  predicate IsPdf(name: string) {
    Lower(Suffix(name)) == ".pdf"
  }

  /** The chunk texts the generator yielded, in order, when it ran to the end. */
  function Yielded(o: Outcome): seq<string>
    requires o.Chunks? || o.RecordingRaises?
  {
    if o.Chunks? then o.texts else o.recorded + [o.failing] + o.later
  }

  /**
   * The chunk texts a document leaves in the output: all of them when it succeeds, those
   * before the failing one when building a record raises, and none otherwise.
   */
  function Recorded(d: Document): (ts: seq<string>)
    ensures d.outcome.Chunks? ==> ts == Yielded(d.outcome)
    ensures d.outcome.RecordingRaises? ==>
      && ts < Yielded(d.outcome)
      && |ts| == |d.outcome.recorded|
      && Yielded(d.outcome)[|ts|] == d.outcome.failing
    ensures d.outcome.ConversionRaises? || d.outcome.ChunkingRaises? ==> ts == []
  {
    match d.outcome
    case Chunks(ts) => ts
    case RecordingRaises(rs, f, ls, _) =>
      assert (rs + [f] + ls)[..|rs|] == rs;
      rs
    case _ => []
  }

  /** The number of chunk records a document contributes. */
  function Produced(d: Document): nat {
    |Recorded(d)|
  }

  /**
   * The `total_pages` the driver reports: the probe's count for a PDF, and 0 for any other
   * file or when the probe fails.
   */
  function TotalPages(d: Document): (p: nat)
    ensures p > 0 ==> IsPdf(d.name) && d.pageProbe == Some(p)
    ensures IsPdf(d.name) && d.pageProbe.Some? ==> p == d.pageProbe.value
  {
    if IsPdf(d.name) && d.pageProbe.Some? then d.pageProbe.value else 0
  }

  /** Suffix-case examples: upper-case PDFs are probed, other types and hidden files are not. */
  lemma TotalPagesExamples(probe: Option<nat>, ticks: seq<int>, o: Outcome)
    ensures TotalPages(Document("scan.PDF", Some(12), ticks, o)) == 12
    ensures TotalPages(Document("notes.docx", probe, ticks, o)) == 0
    ensures TotalPages(Document(".pdf", probe, ticks, o)) == 0
    ensures TotalPages(Document("scan.pdf", None, ticks, o)) == 0
  {
    LastDotAt("scan.PDF", 4);
    assert "scan.PDF"[4..] == ".PDF";
    assert Lower(".PDF") == ".pdf";
    LastDotAt("notes.docx", 5);
    assert "notes.docx"[5..] == ".docx";
    assert Lower(".docx") != ".pdf" by {
      assert |Lower(".docx")| == 5;
    }
    LastDotAt(".pdf", 0);
  }

  /**
   * Which files have their pages counted, for every name: those ending in a dot and the
   * letters p, d, f in any case, with something before the dot.
   */
  lemma IsPdfIff(name: string)
    ensures IsPdf(name) <==> |name| >= 5 && Lower(name[|name| - 4..]) == ".pdf"
  {
    var n := |name|;
    if n >= 5 && Lower(name[n - 4..]) == ".pdf" {
      var t := name[n - 4..];
      assert LowerChar(t[0]) == '.' && LowerChar(t[1]) == 'p' && LowerChar(t[2]) == 'd' && LowerChar(t[3]) == 'f';
      forall k | n - 4 < k < n
        ensures name[k] != '.'
      {
        assert name[k] == t[k - (n - 4)];
      }
      SuffixFromLastDot(name, n - 4);
    }
    if IsPdf(name) {
      SuffixShape(name);
      assert |Suffix(name)| == |Lower(Suffix(name))| == 4;
    }
  }
}

=== FILE: driver.dfy ===
/**
 * The document loop and the job result. Each selected document goes through
 * convert -> chunk -> record; a document for which any step raises is reported and not
 * listed as processed (the records built before the failure stay), and the loop carries on
 * with the next one. The job fails when no chunk record was produced at all.
 */
module Driver {
  import opened Optional
  import opened PyText
  import opened Documents
  import opened Selection
  import opened Events
  import opened Estimate
  import opened Cli

  /** One output chunk: its text, the file it came from, and a rough token count. */
  datatype ChunkRecord = ChunkRecord(text: string, source: string, tokens: nat)

  /** The loop's accumulators: all chunk records, processed file names, and the stderr trace. */
  datatype LoopState = LoopState(records: seq<ChunkRecord>, processed: seq<string>, trace: seq<Event>)

  datatype Stats = Stats(totalChunks: nat, totalFiles: nat, avgTokens: nat)

  /** The JSON document written to the output file on success. */
  datatype OutputData = OutputData(
    methodTag: string,
    maxTokens: int,
    mergePeers: bool,
    formulaEnrichment: bool,
    pictureClassification: bool,
    pictureDescription: bool,
    processedFiles: seq<string>,
    chunks: seq<ChunkRecord>,
    stats: Stats)

  /** The object printed on standard output. */
  datatype JobResult =
    | Success(chunksCount: nat, filesProcessed: nat, outputFile: string)
    | Failure(error: string)

  datatype Job = Job(result: JobResult, trace: seq<Event>, written: Option<OutputData>)

  const MethodTag: string := "docling-hybrid"
  const NoChunksMessage: string := "No chunks generated from documents"

  function NoDocumentsMessage(inputDir: string): string {
    "No supported documents found in " + inputDir
  }

  // ---------------------------------------------------------------------------
  // One document

  /** The chunk records a document yields: one per recorded chunk, in order. */
  function RecordsOf(d: Document): (rs: seq<ChunkRecord>)
    ensures |rs| == Produced(d)
    ensures forall k :: 0 <= k < |rs| ==>
      && rs[k].text == Recorded(d)[k]
      && rs[k].source == d.name
      && rs[k].tokens == |Words(rs[k].text)|
  {
    var ts := Recorded(d);
    seq(|ts|, k requires 0 <= k < |ts| => ChunkRecord(ts[k], d.name, |Words(ts[k])|))
  }

  /**
   * The statuses reported for one document, in the order they are written: it opens with
   * `converting` and its page count, and closes with `completed` and its chunk count when it
   * succeeds, with `error` and the exception's message otherwise.
   */
  function DocStatuses(d: Document): (ss: seq<Status>)
    ensures |ss| >= 2 && ss[0] == Converting(TotalPages(d))
    ensures ss[|ss| - 1] == if d.outcome.Chunks? then Completed(|d.outcome.texts|) else Error(d.outcome.message)
  {
    var pages := TotalPages(d);
    var opening := [Converting(pages)] + Beats(pages, d.ticks);
    match d.outcome
    case ConversionRaises(m) => opening + [Error(m)]
    case ChunkingRaises(k, m) => opening + [Converted(pages)] + ChunkCounts(k) + [Error(m)]
    case Chunks(ts) => opening + [Converted(pages)] + ChunkCounts(|ts|) + [Chunked(|ts|), Completed(|ts|)]
    case RecordingRaises(rs, f, ls, m) =>
      var n := |rs + [f] + ls|;
      opening + [Converted(pages)] + ChunkCounts(n) + [Chunked(n), Error(m)]
  }

  /** `converting`, heartbeats, `converted` and the running counts up to `k` leave `k` chunks collecting. */
  lemma OpeningReachesCollecting(pages: nat, ticks: seq<int>, k: nat)
    ensures Run(Pending, [Converting(pages)] + Beats(pages, ticks)) == Some(InConversion(pages))
    ensures Run(Pending, [Converting(pages)] + Beats(pages, ticks) + [Converted(pages)] + ChunkCounts(k)) == Some(Collecting(k))
  {
    var opening := [Converting(pages)] + Beats(pages, ticks);
    RunBeats(pages, ticks);
    RunAppend(Pending, [Converting(pages)], Beats(pages, ticks));
    RunAppend(Pending, opening, [Converted(pages)]);
    RunChunkCounts(k);
    RunAppend(Pending, opening + [Converted(pages)], ChunkCounts(k));
  }

  /** After `k` chunks, `chunked(k)` and then `completed(k)` finish the document, `error` aborts it. */
  lemma CollectingEnds(k: nat, last: Status)
    requires last == Completed(k) || last.Error?
    ensures Run(Collecting(k), [Chunked(k), last]) == Some(if last.Error? then Aborted else Finished(k))
  {
    assert [Chunked(k), last][1..] == [last];
    assert Next(Collecting(k), Chunked(k)) == Some(Collected(k));
    assert Run(Collected(k), [last]) == Some(if last.Error? then Aborted else Finished(k)) by {
      assert [last][1..] == [];
    }
  }

  /**
   * Every document's statuses follow the lifecycle, ending in `completed` with its chunk
   * count when it succeeds and in `error` when conversion, chunking or recording raised.
   */
  lemma DocumentFollowsLifecycle(d: Document)
    ensures Run(Pending, DocStatuses(d)) == Some(if d.outcome.Chunks? then Finished(|d.outcome.texts|) else Aborted)
  {
    var pages := TotalPages(d);
    var opening := [Converting(pages)] + Beats(pages, d.ticks);
    match d.outcome
    case ConversionRaises(m) =>
      OpeningReachesCollecting(pages, d.ticks, 0);
      RunAppend(Pending, opening, [Error(m)]);
    case ChunkingRaises(k, m) =>
      OpeningReachesCollecting(pages, d.ticks, k);
      RunAppend(Pending, opening + [Converted(pages)] + ChunkCounts(k), [Error(m)]);
    case Chunks(ts) =>
      OpeningReachesCollecting(pages, d.ticks, |ts|);
      CollectingEnds(|ts|, Completed(|ts|));
      RunAppend(Pending, opening + [Converted(pages)] + ChunkCounts(|ts|), [Chunked(|ts|), Completed(|ts|)]);
    case RecordingRaises(rs, f, ls, m) =>
      var n := |rs + [f] + ls|;
      OpeningReachesCollecting(pages, d.ticks, n);
      CollectingEnds(n, Error(m));
      RunAppend(Pending, opening + [Converted(pages)] + ChunkCounts(n), [Chunked(n), Error(m)]);
  }

  /** Statuses wrapped as progress lines for document `idx` of `total`. */
  function Label(idx: nat, total: nat, name: string, ss: seq<Status>): (r: seq<Event>)
    ensures |r| == |ss|
    ensures forall k :: 0 <= k < |ss| ==> r[k] == Progress(idx, total, name, ss[k])
  {
    seq(|ss|, k requires 0 <= k < |ss| => Progress(idx, total, name, ss[k]))
  }

  // ---------------------------------------------------------------------------
  // The loop

  /** The records accumulated over the first `n` documents; earlier records are never rewritten. */
  function LoopRecords(docs: seq<Document>, n: nat): (r: seq<ChunkRecord>)
    requires n <= |docs|
    ensures forall m :: 0 <= m <= n ==> LoopRecords(docs, m) <= r
  {
    if n == 0 then [] else LoopRecords(docs, n - 1) + RecordsOf(docs[n - 1])
  }

  /** The processed file names accumulated over the first `n` documents, only ever appended to. */
  function LoopProcessed(docs: seq<Document>, n: nat): (r: seq<string>)
    requires n <= |docs|
    ensures forall m :: 0 <= m <= n ==> LoopProcessed(docs, m) <= r
  {
    if n == 0 then []
    else
      var d := docs[n - 1];
      LoopProcessed(docs, n - 1) + (if d.outcome.Chunks? then [d.name] else [])
  }

  /**
   * The progress lines for the first `n` of the named documents, given the statuses each one
   * reports: document `i` (1-based) of `|names|` writes its statuses labelled with `i`.
   */
  function Trace(names: seq<string>, statuses: seq<seq<Status>>, n: nat): (r: seq<Event>)
    requires n <= |names| == |statuses|
  {
    if n == 0 then [] else Trace(names, statuses, n - 1) + Label(n, |names|, names[n - 1], statuses[n - 1])
  }

  function Names(docs: seq<Document>): (r: seq<string>)
    ensures |r| == |docs| && forall i :: 0 <= i < |docs| ==> r[i] == docs[i].name
  {
    seq(|docs|, i requires 0 <= i < |docs| => docs[i].name)
  }

  function StatusLists(docs: seq<Document>): (r: seq<seq<Status>>)
    ensures |r| == |docs| && forall i :: 0 <= i < |docs| ==> r[i] == DocStatuses(docs[i])
  {
    seq(|docs|, i requires 0 <= i < |docs| => DocStatuses(docs[i]))
  }

  /**
   * The progress lines written for the first `n` documents: each names one of them by its
   * 1-based position and file name, with the number of documents as total.
   */
  function LoopTrace(docs: seq<Document>, n: nat): (r: seq<Event>)
    requires n <= |docs|
    ensures forall k :: 0 <= k < |r| ==>
      && 1 <= r[k].current <= n
      && r[k].total == |docs|
      && r[k].file == docs[r[k].current - 1].name
  {
    TraceBounds(Names(docs), StatusLists(docs), n);
    Trace(Names(docs), StatusLists(docs), n)
  }

  /**
   * The loop's accumulators after the first `n` documents have been handled: the successful
   * files in order, and one record per chunk the documents recorded.
   */
  function Loop(docs: seq<Document>, n: nat): (s: LoopState)
    requires n <= |docs|
    ensures s.processed == ProcessedNames(docs[..n])
    ensures s.records == AllRecords(docs[..n])
    ensures |s.records| == ChunkTotal(docs[..n])
  {
    LoopSummary(docs, n);
    LoopState(LoopRecords(docs, n), LoopProcessed(docs, n), LoopTrace(docs, n))
  }

  /** Reference: the names of the documents that converted and chunked, in order. */
  function ProcessedNames(docs: seq<Document>): seq<string> {
    if |docs| == 0 then []
    else (if docs[0].outcome.Chunks? then [docs[0].name] else []) + ProcessedNames(docs[1..])
  }

  /** Reference: the number of chunk records the documents produce together. */
  function ChunkTotal(docs: seq<Document>): nat {
    if |docs| == 0 then 0 else Produced(docs[0]) + ChunkTotal(docs[1..])
  }

  /** Reference: each document's records in turn, in document order. */
  function AllRecords(docs: seq<Document>): (r: seq<ChunkRecord>)
    ensures |r| == ChunkTotal(docs)
  {
    if |docs| == 0 then [] else RecordsOf(docs[0]) + AllRecords(docs[1..])
  }

  lemma {:induction false} ProcessedNamesSnoc(docs: seq<Document>, d: Document)
    ensures ProcessedNames(docs + [d]) == ProcessedNames(docs) + (if d.outcome.Chunks? then [d.name] else [])
  {
    if |docs| > 0 {
      assert (docs + [d])[1..] == docs[1..] + [d];
      ProcessedNamesSnoc(docs[1..], d);
    } else {
      assert docs + [d] == [d];
    }
  }

  lemma {:induction false} AllRecordsSnoc(docs: seq<Document>, d: Document)
    ensures AllRecords(docs + [d]) == AllRecords(docs) + RecordsOf(d)
  {
    if |docs| > 0 {
      assert (docs + [d])[1..] == docs[1..] + [d];
      AllRecordsSnoc(docs[1..], d);
    } else {
      assert docs + [d] == [d];
    }
  }

  /**
   * After `n` documents the processed files are exactly the successful ones in order, and
   * there is one record per chunk the documents recorded.
   */
  lemma LoopSummary(docs: seq<Document>, n: nat)
    requires n <= |docs|
    ensures LoopProcessed(docs, n) == ProcessedNames(docs[..n])
    ensures LoopRecords(docs, n) == AllRecords(docs[..n])
    ensures |LoopRecords(docs, n)| == ChunkTotal(docs[..n])
  {
    LoopProcessedSummary(docs, n);
    LoopRecordsSummary(docs, n);
  }

  lemma {:induction false} LoopProcessedSummary(docs: seq<Document>, n: nat)
    requires n <= |docs|
    ensures LoopProcessed(docs, n) == ProcessedNames(docs[..n])
  {
    if n > 0 {
      var d := docs[n - 1];
      LoopProcessedSummary(docs, n - 1);
      assert docs[..n] == docs[..n - 1] + [d];
      ProcessedNamesSnoc(docs[..n - 1], d);
      assert LoopProcessed(docs, n) == LoopProcessed(docs, n - 1) + (if d.outcome.Chunks? then [d.name] else []);
    }
  }

  lemma {:induction false} LoopRecordsSummary(docs: seq<Document>, n: nat)
    requires n <= |docs|
    ensures LoopRecords(docs, n) == AllRecords(docs[..n])
  {
    if n > 0 {
      LoopRecordsStep(docs, n);
      LoopRecordsSummary(docs, n - 1);
      PrefixSnoc(docs, n);
      AllRecordsSnoc(docs[..n - 1], docs[n - 1]);
    }
  }

  lemma LoopRecordsStep(docs: seq<Document>, n: nat)
    requires 0 < n <= |docs|
    ensures LoopRecords(docs, n) == LoopRecords(docs, n - 1) + RecordsOf(docs[n - 1])
  {
  }

  lemma PrefixSnoc<T>(xs: seq<T>, n: nat)
    requires 0 < n <= |xs|
    ensures xs[..n] == xs[..n - 1] + [xs[n - 1]]
  {
  }

  /** `r` is a recorded chunk of one of the first `n` documents, with its word count. */
  predicate FromRecorded(docs: seq<Document>, n: nat, r: ChunkRecord)
    requires n <= |docs|
  {
    && r.tokens == |Words(r.text)|
    && exists i :: 0 <= i < n && r.source == docs[i].name && r.text in Recorded(docs[i])
  }

  /**
   * Every record comes from a chunk a document recorded (so from a document that converted
   * and chunked), carries that document's name, and counts the words of its text.
   */
  lemma {:induction false} RecordProvenance(docs: seq<Document>, n: nat)
    requires n <= |docs|
    ensures forall k :: 0 <= k < |LoopRecords(docs, n)| ==> FromRecorded(docs, n, LoopRecords(docs, n)[k])
  {
    if n > 0 {
      RecordProvenance(docs, n - 1);
      var prev := LoopRecords(docs, n - 1);
      var added := RecordsOf(docs[n - 1]);
      var all := LoopRecords(docs, n);
      assert all == prev + added;
      forall k | 0 <= k < |all|
        ensures FromRecorded(docs, n, all[k])
      {
        if k < |prev| {
          assert all[k] == prev[k];
          assert FromRecorded(docs, n - 1, prev[k]);
          var i :| 0 <= i < n - 1 && prev[k].source == docs[i].name && prev[k].text in Recorded(docs[i]);
          assert 0 <= i < n;
        } else {
          var j := k - |prev|;
          assert all[k] == added[j];
          assert Recorded(docs[n - 1])[j] == all[k].text;
          assert 0 <= n - 1 < n;
        }
      }
    }
  }

  /** One of the first `n` documents is named `name` and raised while its chunks were recorded. */
  predicate RecordingFailed(docs: seq<Document>, n: nat, name: string)
    requires n <= |docs|
  {
    exists i :: 0 <= i < n && docs[i].outcome.RecordingRaises? && docs[i].name == name
  }

  /**
   * Every record names a file listed as processed, or a file whose record building raised
   * (its earlier records stay although it is never listed).
   */
  lemma {:induction false} RecordSourcesAccounted(docs: seq<Document>, n: nat)
    requires n <= |docs|
    ensures forall k :: 0 <= k < |LoopRecords(docs, n)| ==>
      LoopRecords(docs, n)[k].source in LoopProcessed(docs, n) || RecordingFailed(docs, n, LoopRecords(docs, n)[k].source)
  {
    if n > 0 {
      RecordSourcesAccounted(docs, n - 1);
      var d := docs[n - 1];
      var prev: seq<ChunkRecord>, added: seq<ChunkRecord> := LoopRecords(docs, n - 1), RecordsOf(d);
      var prevNames := LoopProcessed(docs, n - 1);
      var names := prevNames + (if d.outcome.Chunks? then [d.name] else []);
      assert LoopRecords(docs, n) == prev + added;
      assert LoopProcessed(docs, n) == names;
      forall k | 0 <= k < |prev + added|
        ensures (prev + added)[k].source in names || RecordingFailed(docs, n, (prev + added)[k].source)
      {
        if k < |prev| {
          var x := prev[k].source;
          assert (prev + added)[k] == prev[k];
          if x in prevNames {
            var i :| 0 <= i < |prevNames| && prevNames[i] == x;
            assert names[i] == x;
          } else {
            assert RecordingFailed(docs, n - 1, x);
            var i :| 0 <= i < n - 1 && docs[i].outcome.RecordingRaises? && docs[i].name == x;
            assert 0 <= i < n;
          }
        } else {
          assert (prev + added)[k] == added[k - |prev|];
          if d.outcome.Chunks? {
            assert names[|names| - 1] == d.name;
          } else {
            assert d.outcome.RecordingRaises?;
            assert 0 <= n - 1 < n && docs[n - 1].name == d.name;
          }
        }
      }
    }
  }

  // ---------------------------------------------------------------------------
  // The trace

  /** The statuses reported for document `i`, in the order they appear in a trace. */
  function StatusesOf(trace: seq<Event>, i: nat): seq<Status> {
    if |trace| == 0 then []
    else (if trace[0].current == i then [trace[0].status] else []) + StatusesOf(trace[1..], i)
  }

  lemma {:induction false} StatusesOfAppend(a: seq<Event>, b: seq<Event>, i: nat)
    ensures StatusesOf(a + b, i) == StatusesOf(a, i) + StatusesOf(b, i)
  {
    if |a| > 0 {
      assert (a + b)[1..] == a[1..] + b;
      StatusesOfAppend(a[1..], b, i);
    } else {
      assert a + b == b;
    }
  }

  lemma {:induction false} StatusesOfLabel(idx: nat, total: nat, name: string, ss: seq<Status>, i: nat)
    ensures StatusesOf(Label(idx, total, name, ss), i) == if idx == i then ss else []
  {
    if |ss| > 0 {
      assert Label(idx, total, name, ss)[1..] == Label(idx, total, name, ss[1..]);
      StatusesOfLabel(idx, total, name, ss[1..], i);
    }
  }

  /** Every line of the trace names one of the first `n` documents, with its file and the count. */
  lemma {:induction false} TraceBounds(names: seq<string>, statuses: seq<seq<Status>>, n: nat)
    requires n <= |names| == |statuses|
    ensures forall k :: 0 <= k < |Trace(names, statuses, n)| ==>
      && 1 <= Trace(names, statuses, n)[k].current <= n
      && Trace(names, statuses, n)[k].total == |names|
      && Trace(names, statuses, n)[k].file == names[Trace(names, statuses, n)[k].current - 1]
  {
    if n > 0 {
      TraceBounds(names, statuses, n - 1);
      var prev := Trace(names, statuses, n - 1);
      var added := Label(n, |names|, names[n - 1], statuses[n - 1]);
      var all := Trace(names, statuses, n);
      assert all == prev + added;
      forall k | 0 <= k < |all|
        ensures 1 <= all[k].current <= n && all[k].total == |names| && all[k].file == names[all[k].current - 1]
      {
        if k < |prev| {
          assert all[k] == prev[k];
        } else {
          assert all[k] == added[k - |prev|];
        }
      }
    }
  }

  lemma {:induction false} StatusesOfAbsent(trace: seq<Event>, i: nat)
    requires forall k :: 0 <= k < |trace| ==> trace[k].current != i
    ensures StatusesOf(trace, i) == []
  {
    if |trace| > 0 {
      StatusesOfAbsent(trace[1..], i);
    }
  }

  /** Lines for different documents never interleave: the document position never goes back. */
  lemma {:induction false} TraceOrdered(names: seq<string>, statuses: seq<seq<Status>>, n: nat)
    requires n <= |names| == |statuses|
    ensures forall a, b :: 0 <= a < b < |Trace(names, statuses, n)| ==>
      Trace(names, statuses, n)[a].current <= Trace(names, statuses, n)[b].current
  {
    if n > 0 {
      TraceOrdered(names, statuses, n - 1);
      TraceBounds(names, statuses, n - 1);
      var prev := Trace(names, statuses, n - 1);
      var added := Label(n, |names|, names[n - 1], statuses[n - 1]);
      var all := Trace(names, statuses, n);
      assert all == prev + added;
      forall a, b | 0 <= a < b < |all|
        ensures all[a].current <= all[b].current
      {
        if b < |prev| {
          assert all[a] == prev[a] && all[b] == prev[b];
        } else if a < |prev| {
          assert all[a] == prev[a] && all[b] == added[b - |prev|];
        } else {
          assert all[a] == added[a - |prev|] && all[b] == added[b - |prev|];
        }
      }
    }
  }

  /** Read out of the whole trace, the lines of document `i` are exactly its own statuses. */
  lemma {:induction false} TraceProjection(names: seq<string>, statuses: seq<seq<Status>>, n: nat, i: nat)
    requires 1 <= i <= n <= |names| == |statuses|
    ensures StatusesOf(Trace(names, statuses, n), i) == statuses[i - 1]
  {
    var prev := Trace(names, statuses, n - 1);
    StatusesOfAppend(prev, Label(n, |names|, names[n - 1], statuses[n - 1]), i);
    StatusesOfLabel(n, |names|, names[n - 1], statuses[n - 1], i);
    if i < n {
      TraceProjection(names, statuses, n - 1, i);
    } else {
      TraceBounds(names, statuses, n - 1);
      StatusesOfAbsent(prev, i);
    }
  }

  /** The document loop's trace handles the documents one after the other. */
  lemma LoopTraceOrdered(docs: seq<Document>)
    ensures forall a, b :: 0 <= a < b < |LoopTrace(docs, |docs|)| ==>
      LoopTrace(docs, |docs|)[a].current <= LoopTrace(docs, |docs|)[b].current
  {
    TraceOrdered(Names(docs), StatusLists(docs), |docs|);
  }

  /**
   * In the full trace each document's lines follow the lifecycle and end in `completed`
   * exactly when it succeeded, `error` otherwise.
   */
  lemma EachDocumentFollowsLifecycle(docs: seq<Document>, i: nat)
    requires 1 <= i <= |docs|
    ensures Run(Pending, StatusesOf(LoopTrace(docs, |docs|), i))
         == Some(if docs[i - 1].outcome.Chunks? then Finished(|docs[i - 1].outcome.texts|) else Aborted)
  {
    TraceProjection(Names(docs), StatusLists(docs), |docs|, i);
    DocumentFollowsLifecycle(docs[i - 1]);
  }

  // ---------------------------------------------------------------------------
  // The job

  function TokenSum(rs: seq<ChunkRecord>): nat {
    if |rs| == 0 then 0 else rs[0].tokens + TokenSum(rs[1..])
  }

  /** `sum(tokens) // count`: the floor of the mean token count. */
  function AverageTokens(rs: seq<ChunkRecord>): (avg: nat)
    requires |rs| > 0
    ensures avg * |rs| <= TokenSum(rs) < (avg + 1) * |rs|
  {
    TokenSum(rs) / |rs|
  }

  lemma {:induction false} TokenSumBounds(rs: seq<ChunkRecord>, lo: nat, hi: nat)
    requires forall k :: 0 <= k < |rs| ==> lo <= rs[k].tokens <= hi
    ensures lo * |rs| <= TokenSum(rs) <= hi * |rs|
  {
    if |rs| > 0 {
      var n := |rs[1..]|;
      TokenSumBounds(rs[1..], lo, hi);
      assert TokenSum(rs) == rs[0].tokens + TokenSum(rs[1..]);
      assert lo <= rs[0].tokens <= hi;
      assert lo * (n + 1) == lo * n + lo && hi * (n + 1) == hi * n + hi;
    }
  }

  lemma {:induction false} MulMonotone(a: nat, b: nat, n: nat)
    requires a <= b
    ensures a * n <= b * n
  {
    if n > 0 {
      MulMonotone(a, b, n - 1);
      assert a * n == a * (n - 1) + a && b * n == b * (n - 1) + b;
    }
  }

  /** Comparing products with the same positive factor compares the other factors. */
  lemma OrderFromProducts(a: nat, b: nat, n: nat)
    requires n > 0
    ensures a * n <= b * n ==> a <= b
    ensures a * n < b * n ==> a < b
  {
    if b < a {
      MulMonotone(b + 1, a, n);
      assert (b + 1) * n == b * n + n;
    } else {
      MulMonotone(a, b, n);
    }
  }

  /** The average lies between the smallest and the largest token count. */
  lemma AverageWithinBounds(rs: seq<ChunkRecord>, lo: nat, hi: nat)
    requires |rs| > 0
    requires forall k :: 0 <= k < |rs| ==> lo <= rs[k].tokens <= hi
    ensures lo <= AverageTokens(rs) <= hi
  {
    TokenSumBounds(rs, lo, hi);
    var avg, n, sum := AverageTokens(rs), |rs|, TokenSum(rs);
    assert avg * n <= sum <= hi * n;
    assert lo * n <= sum < (avg + 1) * n;
    OrderFromProducts(avg, hi, n);
    OrderFromProducts(lo, avg + 1, n);
  }

  /**
   * The lines written once every document has been handled and chunks exist: `finalizing`
   * then `saving`, both at the last position, both carrying the chunk count.
   */
  function Closing(total: nat, chunks: nat): (r: seq<Event>)
    ensures |r| == 2 && r[0].status == Finalizing(chunks) && r[1].status == Saving(chunks)
    ensures forall k :: 0 <= k < |r| ==> r[k].current == r[k].total == total
  {
    [ Progress(total, total, "All files processed", Finalizing(chunks)),
      Progress(total, total, "Saving " + IntToDecimal(chunks) + " chunks to disk...", Saving(chunks)) ]
  }

  /**
   * What happens after the loop over `total` documents: fail when no chunk exists, otherwise
   * announce finalizing and saving, then write the output or fail with the write error.
   */
  function Conclude(cfg: Config, total: nat, s: LoopState, writeError: Option<string>): (j: Job)
    ensures s.records == [] ==> j == Job(Failure(NoChunksMessage), s.trace, None)
    ensures s.records != [] ==> j.trace == s.trace + Closing(total, |s.records|)
    ensures s.trace <= j.trace
    ensures s.records != [] && writeError.Some? ==> j.result == Failure(writeError.value) && j.written == None
    ensures s.records != [] && writeError.None? ==>
      && j.result == Success(|s.records|, |s.processed|, cfg.outputFile)
      && j.written.Some?
      && j.written.value.methodTag == MethodTag
      && j.written.value.maxTokens == cfg.maxTokens
      && j.written.value.mergePeers == cfg.mergePeers
      && j.written.value.formulaEnrichment == cfg.enableFormula
      && j.written.value.pictureClassification == cfg.enablePictureClassification
      && j.written.value.pictureDescription == cfg.enablePictureDescription
      && j.written.value.processedFiles == s.processed
      && j.written.value.chunks == s.records
      && j.written.value.stats.totalChunks == |s.records|
      && j.written.value.stats.totalFiles == |s.processed|
      && j.written.value.stats.avgTokens == AverageTokens(s.records)
  {
    if s.records == [] then Job(Failure(NoChunksMessage), s.trace, None)
    else
      var n := |s.records|;
      var trace := s.trace + Closing(total, n);
      match writeError
      case Some(e) => Job(Failure(e), trace, None)
      case None =>
        var stats := Stats(n, |s.processed|, AverageTokens(s.records));
        var out := OutputData(MethodTag, cfg.maxTokens, cfg.mergePeers, cfg.enableFormula,
          cfg.enablePictureClassification, cfg.enablePictureDescription, s.processed, s.records, stats);
        Job(Success(n, |s.processed|, cfg.outputFile), trace, Some(out))
  }

  /** The job once the converter and chunker exist, over the selected documents `docs`. */
  function ChunkSelected(cfg: Config, docs: seq<Document>, writeError: Option<string>): (j: Job)
    ensures docs == [] ==> j == Job(Failure(NoDocumentsMessage(cfg.inputDir)), [], None)
    ensures docs != [] ==> Loop(docs, |docs|).trace <= j.trace
    ensures docs != [] && ChunkTotal(docs) == 0 ==> j.result == Failure(NoChunksMessage)
    ensures docs != [] && ChunkTotal(docs) > 0 && writeError.Some? ==>
      j.result == Failure(writeError.value) && j.written == None
    ensures writeError.None? ==> (j.result.Success? <==> ChunkTotal(docs) > 0)
    ensures j.result.Success? ==>
      && j.result.chunksCount == ChunkTotal(docs)
      && j.result.filesProcessed == |ProcessedNames(docs)|
      && j.result.outputFile == cfg.outputFile
    ensures j.written.Some? <==> j.result.Success?
    ensures j.written.Some? ==>
      && j.written.value.methodTag == MethodTag
      && j.written.value.maxTokens == cfg.maxTokens
      && j.written.value.mergePeers == cfg.mergePeers
      && j.written.value.formulaEnrichment == cfg.enableFormula
      && j.written.value.pictureClassification == cfg.enablePictureClassification
      && j.written.value.pictureDescription == cfg.enablePictureDescription
      && j.written.value.processedFiles == ProcessedNames(docs)
      && j.written.value.chunks == LoopRecords(docs, |docs|) == AllRecords(docs)
      && j.written.value.stats.totalChunks == |j.written.value.chunks| == ChunkTotal(docs)
      && j.written.value.stats.totalFiles == |j.written.value.processedFiles|
      && |j.written.value.chunks| > 0
      && j.written.value.stats.avgTokens == AverageTokens(j.written.value.chunks)
  {
    if docs == [] then Job(Failure(NoDocumentsMessage(cfg.inputDir)), [], None)
    else
      LoopSummary(docs, |docs|);
      assert docs[..|docs|] == docs;
      Conclude(cfg, |docs|, Loop(docs, |docs|), writeError)
  }

  /**
   * The whole job. `setupError` stands for an exception while building the converter or
   * chunker, `writeError` for one while writing the output file; both end in the outer
   * handler's failure result.
   */
  function ChunkDocuments(cfg: Config, listing: seq<Document>, setupError: Option<string>, writeError: Option<string>): (j: Job)
    ensures setupError.Some? ==> j == Job(Failure(setupError.value), [], None)
    ensures setupError.None? ==> j == ChunkSelected(cfg, Select(listing), writeError)
  {
    if setupError.Some? then Job(Failure(setupError.value), [], None)
    else ChunkSelected(cfg, Select(listing), writeError)
  }

  /**
   * Every chunk written to the output comes from a file listed among the processed files,
   * or from a file whose record building raised part-way.
   */
  lemma WrittenSourcesAccounted(cfg: Config, docs: seq<Document>, writeError: Option<string>)
    ensures ChunkSelected(cfg, docs, writeError).written.Some? ==>
      forall r :: r in ChunkSelected(cfg, docs, writeError).written.value.chunks ==>
        r.source in ChunkSelected(cfg, docs, writeError).written.value.processedFiles
        || RecordingFailed(docs, |docs|, r.source)
  {
    var j := ChunkSelected(cfg, docs, writeError);
    if j.written.Some? {
      RecordSourcesAccounted(docs, |docs|);
      LoopSummary(docs, |docs|);
      assert docs[..|docs|] == docs;
      var chunks := j.written.value.chunks;
      forall r | r in chunks
        ensures r.source in j.written.value.processedFiles || RecordingFailed(docs, |docs|, r.source)
      {
        var k :| 0 <= k < |chunks| && chunks[k] == r;
      }
    }
  }

  // ---------------------------------------------------------------------------
  // Document isolation

  /** The reference totals of a three-document listing whose middle document fails. */
  lemma ThreeDocumentTotals(d1: Document, d2: Document, d3: Document)
    requires d1.outcome.Chunks? && !d2.outcome.Chunks? && d3.outcome.Chunks?
    ensures ChunkTotal([d1, d2, d3]) == |d1.outcome.texts| + Produced(d2) + |d3.outcome.texts|
    ensures ProcessedNames([d1, d2, d3]) == [d1.name, d3.name]
  {
    var docs := [d1, d2, d3];
    assert docs[1..] == [d2, d3] && docs[1..][1..] == [d3] && docs[1..][1..][1..] == [];
    assert ChunkTotal([d3]) == Produced(d3) + ChunkTotal([]);
    assert ChunkTotal([d2, d3]) == Produced(d2) + ChunkTotal([d3]);
    assert ChunkTotal(docs) == Produced(d1) + ChunkTotal([d2, d3]);
    assert ProcessedNames([d3]) == [d3.name] + ProcessedNames([]);
    assert ProcessedNames([d2, d3]) == [] + ProcessedNames([d3]);
    assert ProcessedNames(docs) == [d1.name] + ProcessedNames([d2, d3]);
  }

  /**
   * A failing document between two good ones: the job still succeeds and reports two
   * processed files. The chunks kept are those of the first and third documents, plus,
   * when the middle one failed while its records were built, the records made before that.
   */
  lemma FailureIsIsolated(cfg: Config, d1: Document, d2: Document, d3: Document)
    requires d1.outcome.Chunks? && !d2.outcome.Chunks? && d3.outcome.Chunks?
    requires |d1.outcome.texts| + |d3.outcome.texts| > 0
    ensures ChunkSelected(cfg, [d1, d2, d3], None).result
         == Success(|d1.outcome.texts| + Produced(d2) + |d3.outcome.texts|, 2, cfg.outputFile)
    ensures !d2.outcome.RecordingRaises? ==> Produced(d2) == 0
    ensures ChunkSelected(cfg, [d1, d2, d3], None).written.value.processedFiles == [d1.name, d3.name]
    ensures forall r :: r in ChunkSelected(cfg, [d1, d2, d3], None).written.value.chunks ==>
      r.source == d1.name || r.source == d3.name || (d2.outcome.RecordingRaises? && r.source == d2.name)
  {
    var docs := [d1, d2, d3];
    ThreeDocumentTotals(d1, d2, d3);
    WrittenSourcesAccounted(cfg, docs, None);
    var chunks := ChunkSelected(cfg, docs, None).written.value.chunks;
    forall r | r in chunks && RecordingFailed(docs, 3, r.source)
      ensures d2.outcome.RecordingRaises? && r.source == d2.name
    {
      MiddleRecordingFailed(d1, d2, d3, r.source);
    }
  }

  lemma MiddleRecordingFailed(d1: Document, d2: Document, d3: Document, name: string)
    requires d1.outcome.Chunks? && d3.outcome.Chunks?
    requires RecordingFailed([d1, d2, d3], 3, name)
    ensures d2.outcome.RecordingRaises? && name == d2.name
  {
    var docs := [d1, d2, d3];
    var i :| 0 <= i < 3 && docs[i].outcome.RecordingRaises? && docs[i].name == name;
    assert i == 1;
  }

  /**
   * A file whose record building raises part-way is not listed as processed, yet the records
   * built before the failure are written and counted.
   */
  lemma PartialRecordsKept(cfg: Config, d: Document)
    requires d.outcome.RecordingRaises? && |d.outcome.recorded| > 0
    ensures ChunkSelected(cfg, [d], None).result == Success(|d.outcome.recorded|, 0, cfg.outputFile)
    ensures ChunkSelected(cfg, [d], None).written.value.processedFiles == []
    ensures forall k :: 0 <= k < |d.outcome.recorded| ==>
      ChunkSelected(cfg, [d], None).written.value.chunks[k].text == Yielded(d.outcome)[k]
  {
    var docs := [d];
    assert docs[1..] == [];
    assert ChunkTotal(docs) == Produced(d);
    assert ProcessedNames(docs) == [];
    assert LoopRecords(docs, 1) == LoopRecords(docs, 0) + RecordsOf(d);
  }

  /** The reference totals of a two-document listing whose first document yields nothing. */
  lemma TwoDocumentTotals(d1: Document, d2: Document)
    requires d1.outcome == Chunks([]) && d2.outcome.Chunks?
    ensures ChunkTotal([d1, d2]) == |d2.outcome.texts|
    ensures ProcessedNames([d1, d2]) == [d1.name, d2.name]
  {
    var docs := [d1, d2];
    assert docs[1..] == [d2] && docs[1..][1..] == [];
    assert ChunkTotal([d2]) == Produced(d2) + ChunkTotal([]);
    assert ChunkTotal(docs) == Produced(d1) + ChunkTotal([d2]);
    assert ProcessedNames([d2]) == [d2.name] + ProcessedNames([]);
    assert ProcessedNames(docs) == [d1.name] + ProcessedNames([d2]);
  }

  /** A document that converts but yields no chunks still counts as processed. */
  lemma EmptyDocumentCounts(cfg: Config, d1: Document, d2: Document)
    requires d1.outcome == Chunks([]) && d2.outcome.Chunks? && |d2.outcome.texts| > 0
    ensures ChunkSelected(cfg, [d1, d2], None).result
         == Success(|d2.outcome.texts|, 2, cfg.outputFile)
  {
    TwoDocumentTotals(d1, d2);
    var j := ChunkSelected(cfg, [d1, d2], None);
    assert j.result.Success?;
  }
}

=== FILE: estimate.dfy ===
/**
 * The heartbeat reporter's arithmetic. The reporter cannot see inside the conversion, so
 * it estimates the duration from the page count at 1.5 seconds per page and reports how
 * far the elapsed time has come against that estimate, never claiming more than 95%.
 */
module Estimate {
  import opened Optional
  import opened Events

  /** The percentage the estimate alone may reach; completion comes from the driver. */
  const PercentCeiling: real := 95.0

  /**
   * Estimated conversion time in whole seconds: 1.5 seconds per page truncated, or 0 for an
   * unknown (zero) page count. 1.5 * pages is computed exactly as 3 * pages / 2.
   */
  function EstimatedTotal(pages: int): (e: nat)
    ensures pages > 0 ==> e as real <= 1.5 * pages as real < e as real + 1.0
    ensures pages <= 0 ==> e == 0
  {
    if pages > 0 then (3 * pages) / 2 else 0
  }

  /** Seconds left on the estimate, never below zero. */
  function Remaining(estimate: nat, elapsed: int): (r: int)
    ensures r >= 0 && r >= estimate - elapsed
    ensures r == 0 || r == estimate - elapsed
  {
    if estimate - elapsed > 0 then estimate - elapsed else 0
  }

  /** Share of the estimate already elapsed, in percent, capped at 95; 0 without an estimate. */
  function Percent(estimate: nat, elapsed: int): (r: real)
    ensures r <= PercentCeiling
    ensures estimate == 0 ==> r == 0.0
  {
    if estimate > 0 then
      var raw := elapsed as real / estimate as real * 100.0;
      if raw < PercentCeiling then raw else PercentCeiling
    else 0.0
  }

  /**
   * The percentage is never negative once time has started, and below the cap it is exactly
   * elapsed over estimate.
   */
  lemma PercentMeaning(estimate: nat, elapsed: int)
    ensures elapsed >= 0 ==> Percent(estimate, elapsed) >= 0.0
    ensures estimate > 0 && 100 * elapsed <= 95 * estimate ==>
      Percent(estimate, elapsed) * estimate as real == 100.0 * elapsed as real
  {
  }

  /** More elapsed time never lowers the reported percentage. */
  lemma PercentMonotone(estimate: nat, e1: int, e2: int)
    requires e1 <= e2
    ensures Percent(estimate, e1) <= Percent(estimate, e2)
  {
    if estimate > 0 {
      var d := estimate as real;
      assert e1 as real / d <= e2 as real / d;
    }
  }

  /** Once 95% of the estimate has elapsed the report stays at 95, however long conversion runs. */
  lemma PercentSaturates(estimate: nat, elapsed: int)
    requires estimate > 0 && 100 * elapsed >= 95 * estimate
    ensures Percent(estimate, elapsed) == PercentCeiling
  {
    var d, e := estimate as real, elapsed as real;
    assert d > 0.0;
    var q := e / d;
    assert q * d == e;
    assert 100.0 * e >= 95.0 * d;
    assert (q * 100.0) * d == 100.0 * e;
    CancelPositive(q * 100.0, 95.0, d);
  }

  /** A positive factor common to both sides of an inequality can be cancelled. */
  lemma CancelPositive(a: real, b: real, d: real)
    requires d > 0.0 && a * d >= b * d
    ensures a >= b
  {
  }

  /** One heartbeat for a document of `pages` pages, `elapsed` whole seconds into conversion. */
  function Beat(pages: nat, elapsed: int): (s: Status)
    ensures s.Heartbeat? && s.totalPages == pages && s.elapsed == elapsed
    ensures s.remaining >= 0 && s.percent <= PercentCeiling
    ensures s.estimatedTotal == EstimatedTotal(pages)
    ensures s.remaining == Remaining(s.estimatedTotal, elapsed)
    ensures s.percent == Percent(s.estimatedTotal, elapsed)
  {
    var estimate := EstimatedTotal(pages);
    Heartbeat(pages, elapsed, estimate, Remaining(estimate, elapsed), Percent(estimate, elapsed))
  }

  /** The heartbeats emitted at the given elapsed times. */
  function Beats(pages: nat, ticks: seq<int>): (r: seq<Status>)
    ensures |r| == |ticks|
    ensures forall i :: 0 <= i < |ticks| ==> r[i] == Beat(pages, ticks[i])
  {
    seq(|ticks|, i requires 0 <= i < |ticks| => Beat(pages, ticks[i]))
  }

  /** Heartbeats keep a converting document in conversion, whatever their timing. */
  lemma {:induction false} RunBeats(pages: nat, ticks: seq<int>)
    ensures Run(InConversion(pages), Beats(pages, ticks)) == Some(InConversion(pages))
    decreases |ticks|
  {
    if |ticks| > 0 {
      RunBeats(pages, ticks[1..]);
      assert Beats(pages, ticks)[1..] == Beats(pages, ticks[1..]);
    }
  }
}

=== FILE: events.dfy ===
/**
 * The progress objects the driver writes to standard error, as a tagged sum type, and the
 * per-document state machine those objects must follow:
 *
 *   pending -> converting -> (heartbeat)* -> converted -> chunking(1..N) -> chunked(N) -> completed(N)
 *
 * with `error` allowed while converting, while chunking, and while the chunks are recorded.
 */
module Events {
  import opened Optional

  datatype Status =
    | Converting(totalPages: nat)
      // announced before conversion starts, with elapsed 0
    | Heartbeat(totalPages: nat, elapsed: int, estimatedTotal: nat, remaining: int, percent: real)
      // emitted by the background reporter while conversion runs
    | Converted(totalPages: nat)
    | Chunking(chunksSoFar: nat)
    | Chunked(chunks: nat)
    | Completed(chunks: nat)
    | Error(message: string)
    | Finalizing(chunks: nat)
    | Saving(chunks: nat)

  /** One `{"type": "progress", ...}` line: document position, document count, file label, status. */
  datatype Event = Progress(current: nat, total: nat, file: string, status: Status)

  /** Where one document stands in its lifecycle. */
  datatype Phase =
    | Pending
    | InConversion(pages: nat)
    | Collecting(count: nat)
    | Collected(count: nat)
    | Finished(count: nat)
    | Aborted

  /** The state machine's transition on one status; `None` when the status is out of place. */
  function Next(p: Phase, s: Status): Option<Phase> {
    match p
    case Pending =>
      if s.Converting? then Some(InConversion(s.totalPages)) else None
    case InConversion(pages) =>
      if s.Heartbeat? && s.totalPages == pages && s.remaining >= 0 && s.percent <= 95.0 then Some(p)
      else if s == Converted(pages) then Some(Collecting(0))
      else if s.Error? then Some(Aborted)
      else None
    case Collecting(k) =>
      if s == Chunking(k + 1) then Some(Collecting(k + 1))
      else if s == Chunked(k) then Some(Collected(k))
      else if s.Error? then Some(Aborted)
      else None
    case Collected(k) =>
      if s == Completed(k) then Some(Finished(k))
      else if s.Error? then Some(Aborted)
      else None
    case Finished(_) => None
    case Aborted => None
  }

  /** Feed a sequence of statuses to the state machine. */
  function Run(p: Phase, ss: seq<Status>): Option<Phase>
    decreases |ss|
  {
    if |ss| == 0 then Some(p)
    else
      match Next(p, ss[0])
      case None => None
      case Some(q) => Run(q, ss[1..])
  }

  /** Running two pieces one after the other is running their concatenation. */
  lemma {:induction false} RunAppend(p: Phase, a: seq<Status>, b: seq<Status>)
    ensures Run(p, a + b) == match Run(p, a) case None => None case Some(q) => Run(q, b)
    decreases |a|
  {
    if |a| > 0 {
      assert (a + b)[0] == a[0];
      assert (a + b)[1..] == a[1..] + b;
      match Next(p, a[0])
      case None =>
      case Some(q) => RunAppend(q, a[1..], b);
    } else {
      assert a + b == b;
    }
  }

  /** The running chunk counts reported while a document's chunks are generated: 1, 2, ..., k. */
  function ChunkCounts(k: nat): (r: seq<Status>)
    ensures |r| == k
    ensures forall i :: 0 <= i < k ==> r[i] == Chunking(i + 1)
  {
    seq(k, i requires 0 <= i < k => Chunking(i + 1))
  }

  /** Reporting the counts 1..k moves the machine from 0 to k collected chunks. */
  lemma {:induction false} RunChunkCounts(k: nat)
    ensures Run(Collecting(0), ChunkCounts(k)) == Some(Collecting(k))
  {
    if k > 0 {
      RunChunkCounts(k - 1);
      assert ChunkCounts(k) == ChunkCounts(k - 1) + [Chunking(k)];
      RunAppend(Collecting(0), ChunkCounts(k - 1), [Chunking(k)]);
    }
  }
}

=== FILE: optional.dfy ===
/**
 * A value that may be missing: the page-count probe's answer, the result of `int()`, and
 * the exceptions the job may meet.
 */
module Optional {
  datatype Option<T> = None | Some(value: T)
}

=== FILE: program.dfy ===
/**
 * The command-line entry point: parse the arguments, run the job, print its result.
 * The listing of the input directory and the two exceptions the job can meet are inputs.
 */
module Program {
  import opened Optional
  import opened PyText
  import opened Documents
  import opened Selection
  import opened Events
  import opened Cli
  import opened Driver

  /**
   * How a run of the program ends: the exit status, the result object printed on standard
   * output (None when an uncaught exception ends the run first), and the progress lines
   * written to standard error.
   */
  datatype Exit = Exit(status: int, stdout: Option<JobResult>, stderr: seq<Event>)

  /** One run of the program with arguments `argv` (`argv[0]` is the script name). */
  function RunMain(argv: seq<string>, listing: seq<Document>, setupError: Option<string>, writeError: Option<string>): (x: Exit)
    ensures x.status == 1 <==> ParseArgs(argv).UsageError? || ParseArgs(argv).BadMaxTokens?
    ensures x.status == 0 || x.status == 1
    ensures |argv| < 3 ==> x == Exit(1, Some(Failure(UsageMessage)), [])
    ensures x.stdout.None? <==> |argv| > 3 && ParseInt(argv[3]).None?
    ensures x.status == 0 ==>
      && x.stdout == Some(ChunkDocuments(ParseArgs(argv).config, listing, setupError, writeError).result)
      && x.stderr == ChunkDocuments(ParseArgs(argv).config, listing, setupError, writeError).trace
    ensures x.stdout.Some? && x.stdout.value.Success? ==>
      && |argv| >= 3
      && x.stdout.value.outputFile == argv[2]
      && x.stdout.value.chunksCount == ChunkTotal(Select(listing)) > 0
  {
    match ParseArgs(argv)
    case UsageError => Exit(1, Some(Failure(UsageMessage)), [])
    case BadMaxTokens(_) => Exit(1, None, [])
    case Parsed(cfg) =>
      var job := ChunkDocuments(cfg, listing, setupError, writeError);
      Exit(0, Some(job.result), job.trace)
  }

  /** A job that fails still ends the program normally; only its printed result says so. */
  lemma JobFailureExitsNormally(argv: seq<string>, listing: seq<Document>, setupError: Option<string>, writeError: Option<string>)
    requires ParseArgs(argv).Parsed?
    ensures RunMain(argv, listing, setupError, writeError).status == 0
    ensures setupError.Some? ==>
      RunMain(argv, listing, setupError, writeError).stdout == Some(Failure(setupError.value))
    ensures setupError.None? && Select(listing) == [] ==>
      RunMain(argv, listing, setupError, writeError).stdout == Some(Failure(NoDocumentsMessage(argv[1])))
  {
  }

  /** A run that writes chunks reports, on standard output, the file it wrote them to. */
  lemma SuccessNamesOutputFile(argv: seq<string>, listing: seq<Document>)
    requires |argv| >= 3 && (|argv| == 3 || ParseInt(argv[3]).Some?)
    requires ChunkTotal(Select(listing)) > 0
    ensures RunMain(argv, listing, None, None).stdout
         == Some(Success(ChunkTotal(Select(listing)), |ProcessedNames(Select(listing))|, argv[2]))
  {
  }

  /**
   * A token limit padded with an information separator (U+001C to U+001F) is not a number to
   * `int()`, although `str.isspace` counts those characters as whitespace: the run ends with
   * the uncaught conversion error and prints no result.
   */
  lemma SeparatorInLimitIsUncaught(listing: seq<Document>, setupError: Option<string>, writeError: Option<string>)
    ensures RunMain(["chunker", "in", "out.json", "\U{1c}5"], listing, setupError, writeError) == Exit(1, None, [])
  {
    ParseIntRejectsSeparators();
  }
}

=== FILE: pytext.dfy ===
/**
 * The parts of Python's string and path behaviour that the chunker's logic relies on:
 * whitespace, ASCII case mapping, `str.split()`, `str()` and `int()` on integers, and
 * `PurePath.suffix`.
 */
module PyText {
  import opened Optional

  /** `str.isspace()` for one character: the separators of `str.split()` and `str.strip()`. */
  predicate IsSpace(c: char) {
    var n := c as int;
    || n == 0x20 || 0x09 <= n <= 0x0D || 0x1C <= n <= 0x1F || n == 0x85 || n == 0xA0
    || n == 0x1680 || 0x2000 <= n <= 0x200A || n == 0x2028 || n == 0x2029
    || n == 0x202F || n == 0x205F || n == 0x3000
  }

  function LowerChar(c: char): char {
    if 'A' <= c <= 'Z' then (c as int + 32) as char else c
  }

  function UpperChar(c: char): char {
    if 'a' <= c <= 'z' then (c as int - 32) as char else c
  }

  /** `s.lower()`, restricted to the ASCII letters. */
  function Lower(s: string): (r: string)
    ensures |r| == |s|
    ensures forall i :: 0 <= i < |s| ==> r[i] == LowerChar(s[i])
  {
    seq(|s|, i requires 0 <= i < |s| => LowerChar(s[i]))
  }

  /** `s.upper()`, restricted to the ASCII letters. */
  function Upper(s: string): (r: string)
    ensures |r| == |s|
    ensures forall i :: 0 <= i < |s| ==> r[i] == UpperChar(s[i])
  {
    seq(|s|, i requires 0 <= i < |s| => UpperChar(s[i]))
  }

  predicate EndsWith(s: string, suffix: string) {
    |suffix| <= |s| && s[|s| - |suffix|..] == suffix
  }

  // ---------------------------------------------------------------------------
  // str.split() with no separator

  /** Length of the run of non-whitespace characters that starts `s`. */
  function WordLen(s: string): (n: nat)
    ensures n <= |s|
    ensures forall k :: 0 <= k < n ==> !IsSpace(s[k])
    ensures n < |s| ==> IsSpace(s[n])
  {
    if |s| == 0 || IsSpace(s[0]) then 0 else 1 + WordLen(s[1..])
  }

  /** `s.split()`: the maximal runs of non-whitespace characters, left to right. */
  function Words(s: string): (ws: seq<string>)
    ensures forall i :: 0 <= i < |ws| ==> |ws[i]| > 0
    ensures forall i, k :: 0 <= i < |ws| && 0 <= k < |ws[i]| ==> !IsSpace(ws[i][k])
    decreases |s|
  {
    if |s| == 0 then []
    else if IsSpace(s[0]) then Words(s[1..])
    else
      var n := WordLen(s);
      [s[..n]] + Words(s[n..])
  }

  /** The characters of `s` that are not whitespace, in order. */
  function NonSpace(s: string): string {
    if |s| == 0 then [] else (if IsSpace(s[0]) then [] else [s[0]]) + NonSpace(s[1..])
  }

  function Concat(ws: seq<string>): string {
    if |ws| == 0 then [] else ws[0] + Concat(ws[1..])
  }

  lemma {:induction false} NonSpaceOfWord(w: string, rest: string)
    requires forall k :: 0 <= k < |w| ==> !IsSpace(w[k])
    ensures NonSpace(w + rest) == w + NonSpace(rest)
    decreases |w|
  {
    if |w| > 0 {
      assert (w + rest)[1..] == w[1..] + rest;
      NonSpaceOfWord(w[1..], rest);
      assert w == [w[0]] + w[1..];
    } else {
      assert w + rest == rest;
    }
  }

  /** Splitting loses exactly the whitespace: the words put back together are the non-space text. */
  lemma {:induction false} WordsKeepAllText(s: string)
    ensures Concat(Words(s)) == NonSpace(s)
    decreases |s|
  {
    if |s| == 0 {
    } else if IsSpace(s[0]) {
      WordsKeepAllText(s[1..]);
    } else {
      var n := WordLen(s);
      WordsKeepAllText(s[n..]);
      assert s == s[..n] + s[n..];
      NonSpaceOfWord(s[..n], s[n..]);
      assert ([s[..n]] + Words(s[n..]))[1..] == Words(s[n..]);
    }
  }

  /**
   * The scan a tokenizer would perform: count the starts of non-whitespace runs.
   * It agrees with the number of pieces `str.split()` returns.
   */
  method CountWords(s: string) returns (n: nat)
    ensures n == |Words(s)|
  {
    n := 0;
    var i := 0;
    while i < |s|
      invariant 0 <= i <= |s|
      invariant n + |Words(s[i..])| == |Words(s)|
      decreases |s| - i
    {
      if IsSpace(s[i]) {
        assert s[i..][1..] == s[i + 1..];
        i := i + 1;
      } else {
        var j := i;
        while j < |s| && !IsSpace(s[j])
          invariant i <= j <= |s|
          invariant forall k :: i <= k < j ==> !IsSpace(s[k])
          decreases |s| - j
        {
          j := j + 1;
        }
        ghost var t := s[i..];
        assert WordLen(t) == j - i;
        assert t[j - i..] == s[j..];
        n := n + 1;
        i := j;
      }
    }
    assert s[|s|..] == [];
    assert s[0..] == s;
  }

  /** A word of `s` starts at `i`: a non-space character at the start or after a space. */
  predicate StartsWord(s: string, i: nat)
    requires i < |s|
  {
    !IsSpace(s[i]) && (i == 0 || IsSpace(s[i - 1]))
  }

  /** Where the words of `s` start, from position `k` on. */
  function WordStartsFrom(s: string, k: nat): set<nat> {
    set i: nat | k <= i < |s| && StartsWord(s, i)
  }

  lemma WordStartsFromStep(s: string, k: nat)
    requires k < |s|
    ensures WordStartsFrom(s, k) == WordStartsFrom(s, k + 1) + (if StartsWord(s, k) then {k} else {})
    ensures k !in WordStartsFrom(s, k + 1)
  {
    var a, b := WordStartsFrom(s, k), WordStartsFrom(s, k + 1) + (if StartsWord(s, k) then {k} else {});
    forall i: nat
      ensures i in a <==> i in b
    {
    }
  }

  /** Dropping the first character of a text that starts with a word loses that word only if it was one character long. */
  lemma WordsDropFirst(t: string)
    requires |t| > 0 && !IsSpace(t[0])
    ensures |Words(t)| == |Words(t[1..])| + (if |t| > 1 && !IsSpace(t[1]) then 0 else 1)
  {
    var n := WordLen(t);
    if |t| > 1 && !IsSpace(t[1]) {
      assert WordLen(t[1..]) == n - 1;
      assert t[1..][n - 1..] == t[n..];
    }
  }

  /** From `k` on there is one word start per word of `s[k..]`, less one when `k` falls inside a word. */
  lemma {:induction false} WordStartsFromCount(s: string, k: nat)
    requires k <= |s|
    ensures |WordStartsFrom(s, k)|
         == |Words(s[k..])| - (if 0 < k < |s| && !IsSpace(s[k]) && !IsSpace(s[k - 1]) then 1 else 0)
    decreases |s| - k
  {
    if k == |s| {
      assert WordStartsFrom(s, k) == {};
      assert s[k..] == [];
    } else {
      WordStartsFromCount(s, k + 1);
      WordStartsFromStep(s, k);
      assert s[k..][1..] == s[k + 1..];
      if !IsSpace(s[k]) {
        WordsDropFirst(s[k..]);
      }
    }
  }

  /**
   * Reference count for `split()`: there are as many words as positions where a non-space
   * character begins the text or follows a space.
   */
  lemma WordCountIsWordStarts(s: string)
    ensures |Words(s)| == |set i: nat | i < |s| && StartsWord(s, i)|
  {
    WordStartsFromCount(s, 0);
    assert s[0..] == s;
    assert WordStartsFrom(s, 0) == set i: nat | i < |s| && StartsWord(s, i);
  }

  // ---------------------------------------------------------------------------
  // str() and int() on integers

  predicate IsDigit(c: char) {
    '0' <= c <= '9'
  }

  predicate AllDigits(s: string) {
    forall i :: 0 <= i < |s| ==> IsDigit(s[i])
  }

  function DigitValue(c: char): nat
    requires IsDigit(c)
  {
    c as int - '0' as int
  }

  function DigitChar(d: nat): (c: char)
    requires d < 10
    ensures IsDigit(c) && DigitValue(c) == d
  {
    ('0' as int + d) as char
  }

  /** The number a string of decimal digits denotes, most significant digit first. */
  function DecimalValue(s: string): nat
    requires AllDigits(s)
  {
    if |s| == 0 then 0 else 10 * DecimalValue(s[..|s| - 1]) + DigitValue(s[|s| - 1])
  }

  /** `str(n)` for a natural number: its numeral, with no leading zero unless it is 0. */
  function NatToDecimal(n: nat): (s: string)
    ensures |s| > 0 && AllDigits(s)
    ensures DecimalValue(s) == n
    ensures s[0] == '0' <==> n == 0
  {
    if n < 10 then [DigitChar(n)]
    else
      var prefix := NatToDecimal(n / 10);
      var s := prefix + [DigitChar(n % 10)];
      assert s[..|s| - 1] == prefix;
      s
  }

  /** `str(i)` for any integer. */
  function IntToDecimal(i: int): string {
    if i < 0 then "-" + NatToDecimal(-i) else NatToDecimal(i)
  }

  /** Digits with single underscores between them, as `int()` admits. */
  predicate IsDigitRun(s: string) {
    && |s| > 0 && IsDigit(s[0]) && IsDigit(s[|s| - 1])
    && (forall i :: 0 <= i < |s| ==> IsDigit(s[i]) || s[i] == '_')
    && (forall i :: 0 <= i < |s| - 1 && s[i] == '_' ==> s[i + 1] != '_')
  }

  function DropUnderscores(s: string): (r: string)
    requires forall i :: 0 <= i < |s| ==> IsDigit(s[i]) || s[i] == '_'
    ensures AllDigits(r)
  {
    if |s| == 0 then [] else (if s[0] == '_' then [] else [s[0]]) + DropUnderscores(s[1..])
  }

  /**
   * The whitespace `int()` skips around a number. Non-ASCII whitespace counts, but of the
   * ASCII characters only space, tab, line feed, vertical tab, form feed and carriage return
   * do: the separators U+001C to U+001F, which `str.isspace()` accepts, make `int()` fail.
   */
  predicate IntSpace(c: char) {
    IsSpace(c) && !(0x1C <= c as int <= 0x1F)
  }

  function StripLeft(s: string): (r: string)
    ensures |r| > 0 ==> !IntSpace(r[0])
  {
    if |s| > 0 && IntSpace(s[0]) then StripLeft(s[1..]) else s
  }

  function StripRight(s: string): (r: string)
    ensures |r| > 0 ==> !IntSpace(r[|r| - 1])
  {
    if |s| > 0 && IntSpace(s[|s| - 1]) then StripRight(s[..|s| - 1]) else s
  }

  /** The text without the leading and trailing whitespace `int()` ignores. */
  function Strip(s: string): string {
    StripRight(StripLeft(s))
  }

  /**
   * `int(s)` in base 10: surrounding whitespace, an optional sign, then digits that may be
   * grouped by single underscores. `None` stands for the `ValueError` it raises otherwise.
   */
  function ParseInt(s: string): Option<int> {
    var t := Strip(s);
    if |t| > 0 && (t[0] == '+' || t[0] == '-') then
      if IsDigitRun(t[1..]) then
        var v: int := DecimalValue(DropUnderscores(t[1..]));
        Some(if t[0] == '-' then -v else v)
      else None
    else if IsDigitRun(t) then Some(DecimalValue(DropUnderscores(t)) as int)
    else None
  }

  /** `int()` skips line breaks and spaces around a number. */
  lemma ParseIntSkipsPadding()
    ensures ParseInt(" 7\n") == Some(7)
  {
    var s := " 7\n";
    assert IntSpace(s[0]) && s[1..] == "7\n" && !IntSpace('7');
    assert StripLeft(s) == "7\n";
    assert IntSpace("7\n"[1]) && "7\n"[..1] == "7";
    assert StripRight("7\n") == "7";
    assert "7"[..0] == [];
    ParseDigits("7");
  }

  /** A sign, and single underscores between digits, are accepted. */
  lemma ParseIntSignAndGrouping()
    ensures ParseInt("-1_0") == Some(-10)
  {
    var t := "-1_0";
    assert StripLeft(t) == t;
    assert StripRight(t) == t;
    assert t[1..] == "1_0";
    assert DropUnderscores("1_0") == "10";
    assert "10"[..1] == "1" && "1"[..0] == [];
  }

  /** The information separators U+001C..U+001F are not padding for `int()`. */
  lemma ParseIntRejectsSeparators()
    ensures ParseInt("\U{1c}5") == None
    ensures ParseInt("5\U{1f}") == None
  {
    assert StripLeft("\U{1c}5") == "\U{1c}5";
    assert StripRight("\U{1c}5") == "\U{1c}5";
    assert StripLeft("5\U{1f}") == "5\U{1f}";
    assert StripRight("5\U{1f}") == "5\U{1f}";
  }

  /** Doubled underscores and empty text are rejected. */
  lemma ParseIntRejectsMalformed()
    ensures ParseInt("1__0") == None
    ensures ParseInt("") == None
  {
    assert StripLeft("1__0") == "1__0";
    assert StripRight("1__0") == "1__0";
    assert "1__0"[1] == '_' && "1__0"[2] == '_';
  }

  lemma {:induction false} DropUnderscoresOfDigits(s: string)
    requires AllDigits(s)
    ensures DropUnderscores(s) == s
  {
    if |s| > 0 {
      DropUnderscoresOfDigits(s[1..]);
      assert s == [s[0]] + s[1..];
    }
  }

  lemma ParseDigits(s: string)
    requires |s| > 0 && AllDigits(s)
    ensures Strip(s) == s
    ensures IsDigitRun(s)
    ensures DropUnderscores(s) == s
  {
    DropUnderscoresOfDigits(s);
  }

  /** Reading back what `str()` printed gives the same integer. */
  lemma ParseIntRoundTrip(i: int)
    ensures ParseInt(IntToDecimal(i)) == Some(i)
  {
    if i < 0 {
      var d := NatToDecimal(-i);
      var t := "-" + d;
      ParseDigits(d);
      assert t[1..] == d;
      assert StripLeft(t) == t;
      assert StripRight(t) == t by {
        assert t[|t| - 1] == d[|d| - 1];
      }
    } else {
      ParseDigits(NatToDecimal(i));
    }
  }

  // ---------------------------------------------------------------------------
  // PurePath.suffix

  /** `s.rfind('.')`, as an index when a dot exists. */
  function LastDot(s: string): (r: Option<nat>)
    ensures r.Some? ==> r.value < |s| && s[r.value] == '.'
    ensures r.Some? ==> forall k :: r.value < k < |s| ==> s[k] != '.'
    ensures r.None? ==> forall k :: 0 <= k < |s| ==> s[k] != '.'
  {
    if |s| == 0 then None
    else if s[|s| - 1] == '.' then Some(|s| - 1)
    else LastDot(s[..|s| - 1])
  }

  /** The last dot is the one after which no dot follows. */
  lemma LastDotAt(s: string, i: nat)
    requires i < |s| && s[i] == '.'
    requires forall k :: i < k < |s| ==> s[k] != '.'
    ensures LastDot(s) == Some(i)
  {
  }

  /**
   * `PurePath(name).suffix`: the text from the last dot, unless that dot starts the name
   * (a hidden file) or ends it; otherwise empty.
   */
  function Suffix(name: string): string {
    match LastDot(name)
    case Some(i) => if 0 < i < |name| - 1 then name[i..] else []
    case None => []
  }

  /**
   * A non-empty suffix is a dot, then at least one character, none of them a dot, ending
   * the name and leaving something before it.
   */
  lemma SuffixShape(name: string)
    ensures Suffix(name) == [] || (Suffix(name)[0] == '.' && EndsWith(name, Suffix(name))
      && 2 <= |Suffix(name)| < |name|)
    ensures forall k :: 0 < k < |Suffix(name)| ==> Suffix(name)[k] != '.'
  {
  }

  /** With a last dot at `i`, the suffix is the text from `i` unless that dot starts or ends the name. */
  lemma SuffixFromLastDot(name: string, i: nat)
    requires i < |name| && name[i] == '.'
    requires forall k :: i < k < |name| ==> name[k] != '.'
    ensures Suffix(name) == if 0 < i < |name| - 1 then name[i..] else []
  {
    LastDotAt(name, i);
  }

  /** A name without a dot has no suffix. */
  lemma SuffixWithoutDot(name: string)
    requires forall k :: 0 <= k < |name| ==> name[k] != '.'
    ensures Suffix(name) == []
  {
  }
}

=== FILE: selection.dfy ===
/**
 * Choosing the input documents: for every extension of an allow-list, in list order, the
 * directory entries whose name ends with the extension as written (lower case) and then
 * those whose name ends with its upper-case form. Matching is case-sensitive, so a name
 * ending in a mixed-case extension such as `.Pdf` is never chosen.
 */
module Selection {
  import opened PyText
  import opened Documents

  /** The formats the converter accepts, in the order their files are processed. */
  const SupportedExtensions: seq<string> := [
    ".pdf", ".docx", ".doc",
    ".xlsx", ".xls",
    ".pptx", ".ppt",
    ".md", ".txt", ".rst",
    ".jpg", ".jpeg", ".png", ".gif", ".bmp", ".tiff", ".tif",
    ".html", ".htm"
  ]

  /** A directory glob for `'*' + pattern`: the entries whose name ends with `pattern`, in listing order. */
  function Glob(listing: seq<Document>, pattern: string): (r: seq<Document>)
    ensures forall d :: multiset(r)[d] == if EndsWith(d.name, pattern) then multiset(listing)[d] else 0
  {
    if |listing| == 0 then []
    else
      assert listing == [listing[0]] + listing[1..];
      (if EndsWith(listing[0].name, pattern) then [listing[0]] else []) + Glob(listing[1..], pattern)
  }

  /** The selection loop over a list of extensions. */
  function SelectFrom(exts: seq<string>, listing: seq<Document>): seq<Document> {
    if |exts| == 0 then []
    else Glob(listing, exts[0]) + Glob(listing, Upper(exts[0])) + SelectFrom(exts[1..], listing)
  }

  /**
   * The documents the driver processes, in processing order: a rearrangement of the
   * supported entries of the listing, so none is dropped and none is picked twice.
   */
  function Select(listing: seq<Document>): (r: seq<Document>)
    ensures multiset(r) == multiset(SupportedEntries(listing))
  {
    var r := SelectFrom(SupportedExtensions, listing);
    assert multiset(r) == multiset(SupportedEntries(listing)) by {
      SupportedExtensionsWellFormed();
      forall d | true
        ensures multiset(r)[d] == multiset(SupportedEntries(listing))[d]
      {
        SelectFromCount(SupportedExtensions, listing, d);
      }
    }
    r
  }

  predicate MatchesExt(name: string, ext: string) {
    EndsWith(name, ext) || EndsWith(name, Upper(ext))
  }

  predicate MatchesSome(name: string, exts: seq<string>) {
    exists i :: 0 <= i < |exts| && MatchesExt(name, exts[i])
  }

  /** A name is supported when it ends with a listed extension in lower or in upper case. */
  predicate Supported(name: string) {
    MatchesSome(name, SupportedExtensions)
  }

  /** Reference order-free view: the supported entries of the listing, in listing order. */
  function SupportedEntries(listing: seq<Document>): (r: seq<Document>)
    ensures forall d :: multiset(r)[d] == if Supported(d.name) then multiset(listing)[d] else 0
  {
    if |listing| == 0 then []
    else
      assert listing == [listing[0]] + listing[1..];
      (if Supported(listing[0].name) then [listing[0]] else []) + SupportedEntries(listing[1..])
  }

  // ---------------------------------------------------------------------------
  // Why no file is chosen twice

  /** A dot followed by dot-free text, like every extension and every `Suffix`. */
  predicate DotWord(p: string) {
    |p| >= 1 && p[0] == '.' && forall k :: 1 <= k < |p| ==> p[k] != '.'
  }

  /** An allow-list entry: a dot and at least one lower-case ASCII letter. */
  predicate LowerExtension(x: string) {
    |x| >= 2 && x[0] == '.' && forall k :: 1 <= k < |x| ==> 'a' <= x[k] <= 'z'
  }

  predicate WellFormedExtensions(exts: seq<string>) {
    && (forall i :: 0 <= i < |exts| ==> LowerExtension(exts[i]))
    && (forall i, j :: 0 <= i < j < |exts| ==> exts[i] != exts[j])
  }

  lemma SupportedExtensionsWellFormed()
    ensures WellFormedExtensions(SupportedExtensions)
  {
    var exts := SupportedExtensions;
    assert forall i :: 0 <= i < |exts| ==> LowerExtension(exts[i]);
    assert forall i, j :: 0 <= i < j < |exts| ==> exts[i] != exts[j];
  }

  /** Two dot-words that both end one name are the same text. */
  lemma SameDotSuffix(name: string, p: string, q: string)
    requires DotWord(p) && DotWord(q)
    requires EndsWith(name, p) && EndsWith(name, q)
    ensures p == q
  {
  }

  lemma UpperIsDotWord(x: string)
    requires LowerExtension(x)
    ensures DotWord(x) && DotWord(Upper(x))
    ensures forall k :: 1 <= k < |x| ==> 'A' <= Upper(x)[k] <= 'Z'
  {
  }

  /** A lower-case pattern and an upper-cased one never both end the same name. */
  lemma CaseClash(name: string, x: string, y: string)
    requires LowerExtension(x) && LowerExtension(y)
    ensures !(EndsWith(name, x) && EndsWith(name, Upper(y)))
  {
    UpperIsDotWord(x);
    UpperIsDotWord(y);
    assert x[1] != Upper(y)[1];
    if EndsWith(name, x) && EndsWith(name, Upper(y)) {
      SameDotSuffix(name, x, Upper(y));
      assert false;
    }
  }

  /** A name matches at most one pattern of a well-formed list. */
  lemma PatternsDisjoint(name: string, x: string, y: string)
    requires LowerExtension(x) && LowerExtension(y)
    requires MatchesExt(name, x) && MatchesExt(name, y)
    ensures x == y
    ensures !(EndsWith(name, x) && EndsWith(name, Upper(x)))
  {
    CaseClash(name, x, x);
    CaseClash(name, x, y);
    CaseClash(name, y, x);
    UpperIsDotWord(x);
    UpperIsDotWord(y);
    if EndsWith(name, x) && EndsWith(name, y) {
      SameDotSuffix(name, x, y);
    } else {
      SameDotSuffix(name, Upper(x), Upper(y));
      assert forall k :: 0 <= k < |x| ==> x[k] == y[k] by {
        forall k | 0 <= k < |x|
          ensures x[k] == y[k]
        {
          assert UpperChar(x[k]) == UpperChar(y[k]);
        }
      }
    }
  }

  lemma MatchesSomeCons(name: string, exts: seq<string>)
    requires |exts| > 0
    ensures MatchesSome(name, exts) <==> MatchesExt(name, exts[0]) || MatchesSome(name, exts[1..])
  {
    if MatchesSome(name, exts) && !MatchesExt(name, exts[0]) {
      var i :| 0 <= i < |exts| && MatchesExt(name, exts[i]);
      assert exts[1..][i - 1] == exts[i];
    }
    if MatchesSome(name, exts[1..]) {
      var i :| 0 <= i < |exts| - 1 && MatchesExt(name, exts[1..][i]);
      assert exts[i + 1] == exts[1..][i];
    }
  }

  /** Each entry is chosen as often as it appears in the listing if it matches, and never otherwise. */
  lemma {:induction false} SelectFromCount(exts: seq<string>, listing: seq<Document>, d: Document)
    requires WellFormedExtensions(exts)
    ensures multiset(SelectFrom(exts, listing))[d] == if MatchesSome(d.name, exts) then multiset(listing)[d] else 0
    decreases |exts|
  {
    if |exts| > 0 {
      var x := exts[0];
      var rest := exts[1..];
      assert WellFormedExtensions(rest) by {
        forall i, j | 0 <= i < j < |rest| ensures rest[i] != rest[j] {
          assert rest[i] == exts[i + 1] && rest[j] == exts[j + 1];
        }
      }
      SelectFromCount(rest, listing, d);
      MatchesSomeCons(d.name, exts);
      if MatchesExt(d.name, x) {
        PatternsDisjoint(d.name, x, x);
        if MatchesSome(d.name, rest) {
          var i :| 0 <= i < |rest| && MatchesExt(d.name, rest[i]);
          PatternsDisjoint(d.name, x, rest[i]);
          assert false;
        }
      }
    }
  }

  /** An entry is chosen exactly when it is listed and its name is supported. */
  lemma SelectMembership(listing: seq<Document>, d: Document)
    ensures d in Select(listing) <==> d in listing && Supported(d.name)
  {
    assert d in Select(listing) <==> d in multiset(Select(listing));
    assert d in SupportedEntries(listing) <==> d in multiset(SupportedEntries(listing));
  }

  /** The selection is empty exactly when no listed name is supported. */
  lemma SelectEmpty(listing: seq<Document>)
    ensures Select(listing) == [] <==> forall d :: d in listing ==> !Supported(d.name)
  {
    if Select(listing) != [] {
      SelectMembership(listing, Select(listing)[0]);
    }
    forall d | d in listing && Supported(d.name)
      ensures Select(listing) != []
    {
      SelectMembership(listing, d);
    }
  }

  /**
   * Whether a name is supported depends only on its final dot-word (the text from its last
   * dot): that must be an allow-list entry exactly as written or exactly upper-cased.
   */
  lemma SupportedIffFinalExtension(name: string, p: string)
    requires DotWord(p) && EndsWith(name, p)
    ensures Supported(name) <==>
      exists i :: 0 <= i < |SupportedExtensions| && (p == SupportedExtensions[i] || p == Upper(SupportedExtensions[i]))
  {
    SupportedExtensionsWellFormed();
    if Supported(name) {
      var i :| 0 <= i < |SupportedExtensions| && MatchesExt(name, SupportedExtensions[i]);
      var x := SupportedExtensions[i];
      UpperIsDotWord(x);
      if EndsWith(name, x) {
        SameDotSuffix(name, p, x);
      } else {
        SameDotSuffix(name, p, Upper(x));
      }
    }
  }

  lemma SupportedExamples()
    ensures Supported("report.pdf")
    ensures Supported("report.PDF")
  {
    assert MatchesExt("report.pdf", SupportedExtensions[0]) by {
      assert "report.pdf"[6..] == ".pdf";
    }
    assert MatchesExt("report.PDF", SupportedExtensions[0]) by {
      assert Upper(".pdf") == ".PDF";
      assert "report.PDF"[6..] == ".PDF";
    }
  }

  lemma MixedCaseExamples()
    ensures !Supported("report.Pdf")
    ensures !Supported("Report.pDF")
  {
    assert "report.Pdf"[6..] == ".Pdf" && 'A' <= ".Pdf"[1] <= 'Z' && 'a' <= ".Pdf"[2] <= 'z';
    MixedCaseRejected("report.Pdf", ".Pdf");
    assert "Report.pDF"[6..] == ".pDF" && 'A' <= ".pDF"[2] <= 'Z' && 'a' <= ".pDF"[1] <= 'z';
    MixedCaseRejected("Report.pDF", ".pDF");
  }

  /** A final extension mixing lower- and upper-case letters is never supported. */
  lemma MixedCaseRejected(name: string, p: string)
    requires DotWord(p) && EndsWith(name, p)
    requires exists j, k :: 1 <= j < |p| && 1 <= k < |p| && 'A' <= p[j] <= 'Z' && 'a' <= p[k] <= 'z'
    ensures !Supported(name)
  {
    SupportedExtensionsWellFormed();
    SupportedIffFinalExtension(name, p);
    if Supported(name) {
      var i :| 0 <= i < |SupportedExtensions| && (p == SupportedExtensions[i] || p == Upper(SupportedExtensions[i]));
      var j, k :| 1 <= j < |p| && 1 <= k < |p| && 'A' <= p[j] <= 'Z' && 'a' <= p[k] <= 'z';
      UpperIsDotWord(SupportedExtensions[i]);
      assert false;
    }
  }

  // ---------------------------------------------------------------------------
  // Grouping by extension

  /**
   * Position of a name's pattern in processing order: `2k` for the k-th extension as written,
   * `2k + 1` for its upper-case form.
   */
  function Rank(name: string, exts: seq<string>): nat
    requires MatchesSome(name, exts)
    decreases |exts|
  {
    MatchesSomeCons(name, exts);
    if EndsWith(name, exts[0]) then 0
    else if EndsWith(name, Upper(exts[0])) then 1
    else 2 + Rank(name, exts[1..])
  }

  lemma WellFormedTail(exts: seq<string>)
    requires |exts| > 0 && WellFormedExtensions(exts)
    ensures WellFormedExtensions(exts[1..])
  {
    var rest := exts[1..];
    forall i, j | 0 <= i < j < |rest| ensures rest[i] != rest[j] {
      assert rest[i] == exts[i + 1] && rest[j] == exts[j + 1];
    }
  }

  /** The rank of a name by the pattern it matches at the head of the list. */
  lemma RankCons(n: string, exts: seq<string>)
    requires |exts| > 0 && WellFormedExtensions(exts)
    ensures EndsWith(n, exts[0]) ==> MatchesSome(n, exts) && Rank(n, exts) == 0
    ensures EndsWith(n, Upper(exts[0])) ==> MatchesSome(n, exts) && Rank(n, exts) == 1
    ensures MatchesSome(n, exts[1..]) ==> MatchesSome(n, exts) && Rank(n, exts) == 2 + Rank(n, exts[1..])
  {
    MatchesSomeCons(n, exts);
    var x := exts[0];
    if EndsWith(n, Upper(x)) {
      PatternsDisjoint(n, x, x);
    }
    if MatchesSome(n, exts[1..]) {
      var k :| 0 <= k < |exts[1..]| && MatchesExt(n, exts[1..][k]);
      if MatchesExt(n, x) {
        PatternsDisjoint(n, x, exts[1..][k]);
        assert false;
      }
    }
  }

  lemma GlobMember(listing: seq<Document>, pattern: string, d: Document)
    requires d in Glob(listing, pattern)
    ensures EndsWith(d.name, pattern)
  {
    assert d in multiset(Glob(listing, pattern));
  }

  /** The chosen entries come grouped by pattern, in allow-list order. */
  lemma {:induction false} SelectFromGrouped(exts: seq<string>, listing: seq<Document>)
    requires WellFormedExtensions(exts)
    ensures forall i :: 0 <= i < |SelectFrom(exts, listing)| ==> MatchesSome(SelectFrom(exts, listing)[i].name, exts)
    ensures forall i, j :: 0 <= i < j < |SelectFrom(exts, listing)| ==>
      Rank(SelectFrom(exts, listing)[i].name, exts) <= Rank(SelectFrom(exts, listing)[j].name, exts)
    decreases |exts|
  {
    if |exts| > 0 {
      var x := exts[0];
      var rest := exts[1..];
      WellFormedTail(exts);
      SelectFromGrouped(rest, listing);
      var a := Glob(listing, x);
      var b := Glob(listing, Upper(x));
      var c := SelectFrom(rest, listing);
      var sel := SelectFrom(exts, listing);
      assert sel == a + b + c;
      var lo := |a|;
      var hi := |a| + |b|;
      forall i | 0 <= i < |sel|
        ensures MatchesSome(sel[i].name, exts)
        ensures i < lo ==> Rank(sel[i].name, exts) == 0
        ensures lo <= i < hi ==> Rank(sel[i].name, exts) == 1
        ensures hi <= i ==> sel[i] == c[i - hi] && Rank(sel[i].name, exts) == 2 + Rank(c[i - hi].name, rest)
      {
        RankCons(sel[i].name, exts);
        if i < lo {
          assert sel[i] == a[i];
          GlobMember(listing, x, sel[i]);
        } else if i < hi {
          assert sel[i] == b[i - lo];
          GlobMember(listing, Upper(x), sel[i]);
        } else {
          assert sel[i] == c[i - hi];
        }
      }
      forall i, j | 0 <= i < j < |sel|
        ensures Rank(sel[i].name, exts) <= Rank(sel[j].name, exts)
      {
        if hi <= i {
          assert Rank(c[i - hi].name, rest) <= Rank(c[j - hi].name, rest);
        }
      }
    }
  }

  /** Where a supported name falls in processing order. */
  function GroupOf(name: string): nat
    requires Supported(name)
  {
    Rank(name, SupportedExtensions)
  }

  /** The driver's order: every selected document is supported, and groups follow the allow-list. */
  lemma SelectGrouped(listing: seq<Document>)
    ensures forall i :: 0 <= i < |Select(listing)| ==> Supported(Select(listing)[i].name)
    ensures forall i, j :: 0 <= i < j < |Select(listing)| ==>
      GroupOf(Select(listing)[i].name) <= GroupOf(Select(listing)[j].name)
  {
    SupportedExtensionsWellFormed();
    SelectFromGrouped(SupportedExtensions, listing);
  }
}
